=== FILE: README.md ===
# go-torrentapi client core, modelled in Dafny

This project models `torrentapi.go`, the Go client for version 2 of the RARBG
TorrentAPI. The client keeps one `API` value. The value holds:

- the configuration: base URL, application id, request delay, token lifetime and retry limit;
- the current access token;
- the query state of the next call: the `Query` string and the category list.

The builder methods append `&key=value` fragments to the query and collect
category codes. `Search` and `List` add the mode marker and run `call`, which
works as follows:

- it renews the token if it is not valid;
- it merges the categories as one `&category=c1;c2` fragment;
- it builds `url&token=T<query>&app_id=ID` and sends it through `makeRequest`;
- `makeRequest` resends after a 429 answer, up to the retry limit;
- `processResponse` classifies the JSON envelope;
- after the expired-token code 4, `call` renews the token once and sends the request once more.

Whatever happens, the query state is cleared on the way out. `New` applies
the functional options, makes the base URL end in `?` and fetches the first
token.

The model is functional. An `Api` datatype stands for the Go struct, and every
operation is a pure function from the `Api` value, an environment and a trace
to a result, the new `Api` value and the new trace:

- `Env` holds the outside world as three oracles. `replies(k)` answers the k-th HTTP request. `accepts(u)` says whether `http.NewRequest` accepts the URL. `clock(k)` is the k-th reading of `time.Now()`.
- `Trace` counts what was consumed: every HTTP request sent, the clock readings and the back-off sleeps.
- Each `call` also returns its log of logical requests (token or search, with the URL).
- Time is an integer count of nanoseconds, like Go's `time.Duration`.
- `url.QueryEscape` is a parameter `escape`.
- `strconv.Itoa` is implemented. A parser is its round-trip partner.

Modules, in dependency order:

- `Wrappers`: `Option` and `Result`.
- `GoInt`: Go's 64-bit `int` and its wrapping decrement.
- `Decimal`: `Itoa`/`Atoi`.
- `Text`: `strings.Join`, splitting and suffixes.
- `QueryCodec`: `&key=value` fragments, a query parser, the `;`-joined category list.
- `Tokens`: the token and `IsValid`.
- `Errors`: the error kinds.
- `Responses`: the envelope and `processResponse`.
- `Transport`: `makeRequest`.
- `Client`: the `API` value, its builders, URL assembly and the options.
- `Controller`: `renewToken`, `getResults`, `call`, `Search`, `List` and `New`.
- `Scenarios`: runs against scripted environments, including the cases of the repository's `TestCall`.

## Model

| member | source | states |
|---|---|---|
| Decimal.Itoa | torrentapi.go:143-146 | The decimal text `%d` gives is non-empty. It starts with '-' exactly for negative numbers, and the rest is digits without leading zeros (only zero itself prints as "0"). |
| Decimal.ItoaRoundTrip | torrentapi.go:143-146 | Parsing the text of `%d` back gives the same integer, for every integer. |
| Decimal.ItoaHasNoDelimiters | torrentapi.go:165-174 | A number's text never contains '&', '=' or ';'. So limits, seeders, leechers and category codes cannot break the query. |
| Decimal.DigitsValue | torrentapi.go:143-146 | The digits of a natural number read back as that number. |
| Text.IndexOfSeparator | torrentapi.go:210-216 | In `a + sep + b` with `a` free of `sep`, the first separator is at position `|a|`. |
| Text.SplitJoin | torrentapi.go:210-216 | `strings.Join` of separator-free pieces splits back into exactly those pieces. |
| Text.JoinSplit | torrentapi.go:210-216 | Joining the pieces of any split restores the string. |
| QueryCodec.FragmentsConcat | torrentapi.go:107-174 | The fragments of two pair lists, one after the other, are the fragments of the joined list. Appending builder fragments is compositional. |
| QueryCodec.FragmentsAsJoin | torrentapi.go:107-174 | A fragment string is the '&'-join of `key=value` pieces, after an empty first piece. |
| QueryCodec.KeyValuePiece | torrentapi.go:107-174 | A `key=value` piece with an '='-free key splits back into its key and value. |
| QueryCodec.SplitPrefixed | torrentapi.go:217 | A prefix without '&' followed by fragments splits into the prefix and the `key=value` pieces. |
| QueryCodec.ParsePieces | torrentapi.go:217 | The pieces of delimiter-free pairs read back as those pairs. |
| QueryCodec.ParsePrefixedFragments | torrentapi.go:217 | After a base URL without '&', the fragments of delimiter-free pairs read back as exactly those pairs, in order. |
| QueryCodec.ParseFragments | torrentapi.go:107-174 | A query made only of fragments reads back as its pairs. |
| QueryCodec.ParseCodeStrings | torrentapi.go:210-216 | The decimal texts of the category codes parse back to the codes. |
| QueryCodec.CategoryRoundTrip | torrentapi.go:210-216 | A non-empty category list, joined with ';', parses back to the same codes in the same order, and contains no '&'. |
| QueryCodec.JoinAvoids | torrentapi.go:210-216 | The ';'-join of strings without '&' has no '&'. |
| Tokens.IsValid | torrentapi.go:83-91 | An empty token string is never valid. A non-empty one is valid exactly while `now <= expires`. |
| Tokens.Stamp | torrentapi.go:294 | The renewed token keeps the decoded string, and expires exactly the lifetime after the reading. |
| Tokens.StampedTokenValidity | torrentapi.go:83-91 | A freshly renewed token is valid exactly when its string is non-empty and no more than the lifetime has passed since the renewal. |
| Tokens.ValidityIsDownwardClosed | torrentapi.go:83-91 | A token valid at some instant was valid at every earlier instant. |
| Responses.ProcessResponse | torrentapi.go:249-275 | Success comes in two cases: the payload is present and decodes, or the payload is absent with error text and code 10 or 20, which gives a nil result. A decodable payload wins over the error fields. An undecodable payload gives the decode error. Error text with code 4 gives the expired-token signal. No error text gives the unknown-response error. Any other code gives a service error with the text and code. Each of these holds in both directions. |
| Responses.PayloadTakesPrecedence | torrentapi.go:251-256 | With a payload present, the error text and code make no difference. |
| Responses.CodeIgnoredWithoutText | torrentapi.go:257-275 | Without error text, every code gives the unknown-response error. |
| Responses.WellFormedEnvelopeIsUsable | torrentapi.go:249-275 | An envelope with exactly one of payload and error text never gives the unknown-response error. |
| Transport.MakeRequest | torrentapi.go:299-326 | A URL that cannot become a request is sent nowhere and gives the build error. Otherwise the same URL is sent at least once and at most `Attempts(maxRetries)` times: `maxRetries` for a positive limit, one for any other limit except the minimum `int`, which wraps to 2^63. Every answer but the last was a 429, and each resend follows one back-off sleep. The last answer decides the result: 200 gives the body, 429 gives the rate-limit error (only once the attempts are used up), any other status its status error, and a failed connection the transport error. |
| Transport.MakeRequestLoop | torrentapi.go:299-326 | The `for` loop with its decrement-then-test counter computes exactly what `MakeRequest` describes. |
| Transport.PersistentThrottling | torrentapi.go:317-321 | A server that always answers 429 gets exactly `Attempts(maxRetries)` requests, then the rate-limit error. |
| Transport.MinimumRetriesWrap | torrentapi.go:300-321 | With `MaxRetries(math.MinInt64)` and a server that always answers 429, the first decrement wraps the counter and the client sends 2^63 requests before the rate-limit error. |
| Transport.Attempts | torrentapi.go:300-321 | The attempts a run of 429 answers gets are one, plus the decremented counter when that is positive. |
| GoInt.Decrement | torrentapi.go:302 | `maxAttempts--` gives the true difference modulo 2^64 within the `int` range, so only the minimum wraps, to the maximum. |
| Client.SearchString | torrentapi.go:107-110 | Appends `&search_string=` with the escaped text and changes nothing else. |
| Client.SearchTVDB | torrentapi.go:119-122 | Appends `&search_tvdb=` with the id and changes nothing else. |
| Client.SearchIMDb | torrentapi.go:125-128 | Appends `&search_imdb=` with the id and changes nothing else. |
| Client.SearchTheMovieDb | torrentapi.go:131-134 | Appends `&search_themoviedb=` with the id and changes nothing else. |
| Client.Format | torrentapi.go:137-140 | Appends `&format=` with the value and changes nothing else. |
| Client.Limit | torrentapi.go:143-146 | Appends `&limit=` with the decimal limit and changes nothing else. |
| Client.Sort | torrentapi.go:149-152 | Appends `&sort=` with the value and changes nothing else. |
| Client.Ranked | torrentapi.go:155-162 | Appends `&ranked=1` for true and `&ranked=0` for false, and changes nothing else. |
| Client.MinSeeders | torrentapi.go:165-168 | Appends `&min_seeders=` with the decimal count and changes nothing else. |
| Client.MinLeechers | torrentapi.go:171-174 | Appends `&min_leechers=` with the decimal count and changes nothing else. |
| Client.Category | torrentapi.go:113-116 | Adds the code at the end of the category list, keeps the earlier codes, and leaves the query and everything else alone. |
| Client.ApplyEffect | torrentapi.go:107-174 | A category link only extends the list. Any other link only appends its own fragment to the query. |
| Client.ApplyQuery | torrentapi.go:107-174 | One link appends the fragments of its own pairs (none for a category). |
| Client.ConfigureQuery | torrentapi.go:107-174 | A builder chain appends to the query the fragments of its non-category links, in chain order. |
| Client.ConfigureCategories | torrentapi.go:113-116 | A builder chain appends its category codes to the list, in chain order. |
| Client.ConfigureKeeps | torrentapi.go:107-174 | A builder chain changes nothing but the query and the category list. |
| Client.ConfigureEffect | torrentapi.go:107-174 | Together: query fragments and category codes in chain order, and nothing else changes. |
| Client.PairsWellFormed | torrentapi.go:107-174 | Links whose values have no '&' give pairs without delimiters. |
| Client.ConfigureDecodes | torrentapi.go:107-174 | On an empty query, a chain of such links reads back as exactly its own key/value pairs, in chain order. |
| Client.CategoryPairs | torrentapi.go:210-216 | No categories add no fragment. Any number of categories adds exactly one. |
| Client.InitQuery | torrentapi.go:278-281 | The query state is emptied and everything else is kept. |
| Client.SearchUrlAsFragments | torrentapi.go:217 | The search URL is the base URL followed by the fragments for the token, the query pairs, the category pair if any, and the application id. |
| Client.SearchUrlDecodes | torrentapi.go:210-217 | The search URL reads back, after the base URL, as: the token, the query's own pairs, one category pair whose codes parse back in order, and the application id. |
| Client.LastSetCons | torrentapi.go:340-365 | Seen from the end, an option list's last value of a kind is found in the rest unless the rest sets none. |
| Client.LastOptionWins | torrentapi.go:368-378 | After the options, each setting holds the value of the last option of its kind, or the earlier value when no option of that kind is given. Nothing else changes. |
| Client.NormalizeUrl | torrentapi.go:379-381 | The base URL ends in '?'. A URL already ending in '?' is kept, and any other gets exactly one '?' appended. |
| Client.NormalizeUrlIdempotent | torrentapi.go:379-381 | Normalising twice is normalising once. |
| Controller.RenewToken | torrentapi.go:284-296 | The wire is exactly what `makeRequest` sent for the token URL. The renewal fails exactly when that request failed, with its error, or when the 200 answer carries no token, with the decode error. On success the token URL was the last request sent, the token's string is the one in the 200 answer, and its expiry is the lifetime after the clock reading taken after the answer. On failure no clock is read, and the error is never the expired-token signal. |
| Controller.GetResults | torrentapi.go:189-198 | The requests sent are those of `makeRequest` for the URL. With none sent, the result is the build error. Otherwise it is decided by the last answer: a transport failure, a non-200 status or an exhausted 429 gives that error; a 200 answer gives its envelope, or the decode error when the body does not decode. On success the URL was the last request sent. No clock is read, and the expired-token signal never comes from here. |
| Controller.CheckToken | torrentapi.go:203 | The token check is `IsValid` at the next clock reading, and it sends nothing. |
| Controller.Retry | torrentapi.go:222-235 | After the expired-token answer, the client renews and holds what the renewal returned. The resend happens exactly when the renewal works. After a failed renewal, the renewal's error ends the call and Go's zero token is held. After a successful one, the resend's answer is final: a failure of `getResults` as is, otherwise the classified envelope. The query state is reset. |
| Controller.Dispatch | torrentapi.go:210-238 | Only the token and the query state change, and the query state is reset. |
| Controller.CallWith | torrentapi.go:201-238 | The query state is empty on every way out, and only the token and the query state ever change. |
| Controller.DispatchLog | torrentapi.go:217-238 | The first request is the search built from the settled value. A renewal happens exactly when the first answer is the expired-token signal; the resend follows only a successful renewal (see `Retry`). Otherwise the first answer is the result. |
| Controller.CallLog | torrentapi.go:201-238 | With a valid token the call starts with the search. Otherwise it starts with the token request, and the call ends right there exactly when that renewal fails: no search request is sent, the result is the renewal's own error, and Go's zero token is held. After a successful renewal the rest follows the dispatch shape. Once the token is settled, the first search answer is the result exactly when it is not the expired-token signal; that signal, and only it, brings the renewal and the resend. |
| Controller.DispatchedCounts | torrentapi.go:217-238 | A dispatch makes one or two search requests and at most one token request. |
| Controller.ResentSame | torrentapi.go:230 | As written, the resend is the very URL first sent. |
| Controller.SameSearchesAfterRenewal | torrentapi.go:202-208 | A renewal before the dispatch leaves all search requests alike. |
| Controller.CallBounds | torrentapi.go:201-238 | One call sends one to four logical requests: at most two searches and at most two token requests. The expired-token signal reaches the caller only when the last request is a search right after a renewal. |
| Controller.CalledBounds | torrentapi.go:201-238 | The same bounds for any log of the call's shape. |
| Controller.Call | torrentapi.go:201-238 | The query state is reset and only the token changes. The log has the shape `CallLog` describes, and a failed first renewal ends the call with its error before any search. Once the token is settled, a first answer other than the expired-token signal is the result after one search, and the expired-token signal, and only it, brings the renewal and the resend. Every search request of one call carries the same URL, so the resend carries the token used before the renewal. |
| Controller.CallRenewed | torrentapi.go:201-238 | The corrected call also resets the query state. If its last request is a search, that search carries the token the client holds afterwards. |
| Controller.RebuiltCarriesHeldToken | torrentapi.go:222-235 | With the URL rebuilt after the renewal, the last search carries the held token. |
| Controller.SearchUrlTail | torrentapi.go:217 | A search URL ends with the merged query and the application id, whatever the token. |
| Controller.CalledTail | torrentapi.go:210-217 | Every search request of a call ends with the merged query and the application id. |
| Controller.CallCarriesQuery | torrentapi.go:210-230 | Every search request of one call, the resend included, carries the query built before the call, the categories and the application id. |
| Controller.ModeTail | torrentapi.go:177-186 | A query marked with a mode gives search URLs that end with the mode marker, the categories and the application id. |
| Controller.Search | torrentapi.go:183-186 | Every search request ends with `&mode=search`, the category fragment and the application id. As in `call`, every search request of the run carries the same URL, the resend included. The query state is reset and the configuration is kept. The requests follow the shape of `call`, so at least one logical request is made, and a failed first renewal ends the run before any search. Once the token is settled, a first answer other than the expired-token signal is the result, and the expired-token signal, and only it, brings the renewal and the resend. |
| Controller.List | torrentapi.go:177-180 | Every search request ends with `&mode=list`, the category fragment and the application id. As in `call`, every search request of the run carries the same URL, the resend included. The query state is reset and the configuration is kept. The requests follow the shape of `call`, so at least one logical request is made, and a failed first renewal ends the run before any search. Once the token is settled, a first answer other than the expired-token signal is the result, and the expired-token signal, and only it, brings the renewal and the resend. |
| Controller.Marked | torrentapi.go:177-186 | `call` after the mode marker: the same URL for every search, each ending with the marker, the categories and the application id; the query state reset and the configuration kept; the call's log shape, its renewal-failure rule, and the first answer as the result unless it is the expired-token signal. |
| Controller.New | torrentapi.go:368-390 | `New` fails exactly when the first renewal of the configured value fails, with that renewal's error wrapped, and no client. On success the client holds the renewed token and has the configured settings, a base URL ending in '?', an empty query state and the given application id. |
| Controller.NewStamped | torrentapi.go:383-389 | The client `New` returns holds the token string of the last 200 answer, which went to its own token URL, and the token expires the lifetime after the one clock reading taken. |
| Controller.NewConfiguration | torrentapi.go:368-381 | Each setting is the last option of its kind or the default (URL `https://torrentapi.org/pubapi_v2.php?`, 890 s lifetime, 2 s delay, 10 retries). The URL is then normalised, and the client starts with Go's zero token and an empty query state. |
| Scenarios.AnsweredAtOnce | torrentapi.go:299-326 | Any answer but 429 ends `makeRequest` after one request. |
| Scenarios.Searched | torrentapi.go:189-198 | A 200 answer with an envelope is what `getResults` returns. |
| Scenarios.Renewed | torrentapi.go:284-296 | A 200 answer with a token string is what `renewToken` returns, stamped. |
| Scenarios.AnsweredOnce | torrentapi.go:201-238 | With a valid token and an answer that is not the expired-token signal, the classified answer is the result of one search request. |
| Scenarios.EmptyPayload | torrentapi_test.go:168-179 | An empty payload list is a successful empty result. |
| Scenarios.NoResults | torrentapi_test.go:288-299 | Code 20 is a successful nil result. |
| Scenarios.ServiceFailure | torrentapi_test.go:236-247 | Code 5 is a service error. |
| Scenarios.UndecodablePayload | torrentapi_test.go:276-287 | An undecodable payload is an error. |
| Scenarios.ThrottledRequests | torrentapi.go:299-326 | Two 429 answers then the payload: `makeRequest` sends the same URL three times, sleeps twice, and returns the body. |
| Scenarios.ThrottledThenServed | torrentapi.go:299-326 | The whole call in that environment succeeds with the payload after three requests and two sleeps. |
| Scenarios.RenewalRefused | torrentapi_test.go:224-235 | With an empty token and a refused connection, the call fails after the token request alone, holding the zero token. |
| Scenarios.RetryServed | torrentapi.go:222-235 | The renewal and the resend after an expired-token answer, step by step. |
| Scenarios.RenewedRun | torrentapi.go:201-238 | The whole run: search, expired-token answer, renewal, resend whose answer is the result. |
| Scenarios.ExpiredThenServed | torrentapi_test.go:192-207 | Expired-token answer, renewal, then the payload: success with the new token held. |
| Scenarios.ExpiredTwice | torrentapi.go:230-234 | A second expired-token answer is returned to the caller. |
| Scenarios.StaleTokenResent | torrentapi.go:217-231 | In that run, the resend carries the old token although the client holds the new one. |
| Scenarios.FreshTokenResent | torrentapi.go:217-231 | In the same run, the corrected call resends with the new token. |
| Scenarios.TokenVisible | torrentapi.go:217 | Search URLs that differ only in a token of the same length differ. |
| Scenarios.FirstSearchRefused | torrentapi_test.go:180-191 | A failed first search is an error. |
| Scenarios.ExpiredThenServiceError | torrentapi_test.go:248-263 | After an expired-token answer and a renewal, a service error on the resend is the result. |
| Scenarios.ExpiredThenResendRefused | torrentapi_test.go:208-223 | After an expired-token answer and a renewal, a failed resend is an error; the renewed token stays held. |
| Scenarios.ExpiredThenRenewalRefused | torrentapi_test.go:264-275 | After an expired-token answer, a failed renewal ends the call with the zero token held, after one search and one token request. |

## Left out

- The HTTP client, the `User-Agent` header, closing bodies and the sleep itself are not modelled. The environment's oracles stand for them, and the trace counts sleeps.
- JSON decoding is not modelled. A reply body says whether it decodes to an envelope, whether it holds a token string, and whether `torrent_results` unmarshals and to what.
- `url.QueryEscape` is a parameter. Only the absence of '&' in its output is assumed where a read-back lemma needs it.
- The error messages' text is left out. Errors are tagged kinds. The query text that `processResponse` puts into its messages is dropped.
- Concurrency is not modelled. A client value is used by one call at a time, as the Go code requires.
- `cmd/search_torrents.go`, the command-line tool, is not part of this model.
- `Version` is not modelled: it is only a constant.
- Controller.RenewToken: a token decode error returns whatever the decoder filled in before failing, and `call` stores it. The model stores Go's zero token.
- Tokens.IsValid: the code counts `now == Expires` as still valid (`!After`). A strictly-before reading of validity would differ at that one instant. The model follows the code.
- Scenarios.ExpiredTwice: a second expired-token answer reaches the caller as the expired-token error, as the code does. It is not absorbed.
- Controller.CallWith: a failed renewal inside `call` returns the underlying error unwrapped. Only `New` wraps it, as `RenewalFailed`.
- Client.SearchUrlDecodes: the code sends the application id last, after the query and the categories, and the model follows that order.
- Go's `int` is taken to be 64 bits wide, as on 64-bit platforms. On a 32-bit platform the retry counter would wrap at -2^31 instead.
- The durations (`reqDelay`, `tokenExpiration`) and the clock are unbounded integers. Go's `time.Duration` is 64 bits wide, and an overflow in `time.Now().Add` is not modelled.

## Findings

| source | as written | input that shows it | evidently intended | confidence | as-written member | corrected member |
|---|---|---|---|---|---|---|
| torrentapi.go:217-231 | After the expired-token answer, `call` renews the token and stores it. It then resends `query`, the string built at line 217 with the old token. | A client with a valid token "stale" whose first search is answered with code 4. The renewal returns "fresh". The resend still carries `&token=stale` (`Scenarios.StaleTokenResent`). | The resend carries the renewed token, so the renewal can take effect (`Scenarios.FreshTokenResent`). | medium, not executed | Controller.Call | Controller.CallRenewed |

`Search` and `List` are modelled on `Controller.Call`, the code as
written, so their resends repeat the first search. `Controller.CallRenewed`
stands beside them as the corrected call, and the scenarios show both.

=== FILE: client.dfy ===
/** The `API` value: configuration, the current token and the query state,
    with the fluent builder methods, the functional options of `New`, and the
    assembly of request URLs. */
module Client {
  import opened Wrappers
  import opened Text
  import opened Decimal
  import opened Tokens
  import opened QueryCodec
  import opened GoInt

  const DefaultApiUrl: string := "https://torrentapi.org/pubapi_v2.php?"
  const DefaultRequestDelay: int := 2 * Second
  const DefaultMaxRetries: Int := 10

  /** Go's `API` struct without its `http.Client`. `query` and `categories`
      are the query state of one call cycle. */
  datatype Api = Api(
    query: string,
    apiToken: Token,
    categories: seq<int>,
    appId: string,
    reqDelay: int,
    tokenExpiration: int,
    url: string,
    maxRetries: Int)

  /** `r` is `a` with `fragment` added at the end of its query and nothing else changed. */
  predicate Appends(a: Api, r: Api, fragment: string) {
    && |r.query| == |a.query| + |fragment|
    && r.query[..|a.query|] == a.query
    && EndsWith(r.query, fragment)
    && r.(query := a.query) == a
  }

  // The builder methods. Only the search string is escaped; `escape` stands
  // for `url.QueryEscape`.

  function SearchString(a: Api, text: string, escape: string -> string): (r: Api)
    ensures Appends(a, r, Fragment("search_string", escape(text)))
  {
    a.(query := a.query + Fragment("search_string", escape(text)))
  }

  function SearchTVDB(a: Api, seriesId: string): (r: Api)
    ensures Appends(a, r, Fragment("search_tvdb", seriesId))
  {
    a.(query := a.query + Fragment("search_tvdb", seriesId))
  }

  function SearchIMDb(a: Api, movieId: string): (r: Api)
    ensures Appends(a, r, Fragment("search_imdb", movieId))
  {
    a.(query := a.query + Fragment("search_imdb", movieId))
  }

  function SearchTheMovieDb(a: Api, movieId: string): (r: Api)
    ensures Appends(a, r, Fragment("search_themoviedb", movieId))
  {
    a.(query := a.query + Fragment("search_themoviedb", movieId))
  }

  function Format(a: Api, format: string): (r: Api)
    ensures Appends(a, r, Fragment("format", format))
  {
    a.(query := a.query + Fragment("format", format))
  }

  function Limit(a: Api, limit: int): (r: Api)
    ensures Appends(a, r, Fragment("limit", Itoa(limit)))
  {
    a.(query := a.query + Fragment("limit", Itoa(limit)))
  }

  function Sort(a: Api, sort: string): (r: Api)
    ensures Appends(a, r, Fragment("sort", sort))
  {
    a.(query := a.query + Fragment("sort", sort))
  }

  function Ranked(a: Api, ranked: bool): (r: Api)
    ensures ranked ==> Appends(a, r, Fragment("ranked", "1"))
    ensures !ranked ==> Appends(a, r, Fragment("ranked", "0"))
  {
    if ranked then a.(query := a.query + Fragment("ranked", "1"))
    else a.(query := a.query + Fragment("ranked", "0"))
  }

  function MinSeeders(a: Api, minSeed: int): (r: Api)
    ensures Appends(a, r, Fragment("min_seeders", Itoa(minSeed)))
  {
    a.(query := a.query + Fragment("min_seeders", Itoa(minSeed)))
  }

  function MinLeechers(a: Api, minLeech: int): (r: Api)
    ensures Appends(a, r, Fragment("min_leechers", Itoa(minLeech)))
  {
    a.(query := a.query + Fragment("min_leechers", Itoa(minLeech)))
  }

  /** Categories go to their own list, in call order; the query is untouched. */
  function Category(a: Api, code: int): (r: Api)
    ensures |r.categories| == |a.categories| + 1
    ensures r.categories[..|a.categories|] == a.categories
    ensures r.categories[|a.categories|] == code
    ensures r.(categories := a.categories) == a
  {
    a.(categories := a.categories + [code])
  }

  /** One link of a builder chain. */
  datatype Param =
    | TextParam(text: string)
    | TvdbParam(seriesId: string)
    | ImdbParam(movieId: string)
    | TheMovieDbParam(movieId: string)
    | FormatParam(format: string)
    | LimitParam(limit: int)
    | SortParam(sort: string)
    | RankedParam(ranked: bool)
    | MinSeedersParam(minSeed: int)
    | MinLeechersParam(minLeech: int)
    | CategoryParam(code: int)

  function Apply(a: Api, p: Param, escape: string -> string): Api {
    match p
    case TextParam(t) => SearchString(a, t, escape)
    case TvdbParam(id) => SearchTVDB(a, id)
    case ImdbParam(id) => SearchIMDb(a, id)
    case TheMovieDbParam(id) => SearchTheMovieDb(a, id)
    case FormatParam(f) => Format(a, f)
    case LimitParam(n) => Limit(a, n)
    case SortParam(s) => Sort(a, s)
    case RankedParam(b) => Ranked(a, b)
    case MinSeedersParam(n) => MinSeeders(a, n)
    case MinLeechersParam(n) => MinLeechers(a, n)
    case CategoryParam(c) => Category(a, c)
  }

  /** A whole builder chain, applied left to right. */
  function Configure(a: Api, ps: seq<Param>, escape: string -> string): Api
    decreases |ps|
  {
    if |ps| == 0 then a else Configure(Apply(a, ps[0], escape), ps[1..], escape)
  }

  /** The query pair a non-category link contributes. */
  function PairOf(p: Param, escape: string -> string): Pair
    requires !p.CategoryParam?
  {
    match p
    case TextParam(t) => ("search_string", escape(t))
    case TvdbParam(id) => ("search_tvdb", id)
    case ImdbParam(id) => ("search_imdb", id)
    case TheMovieDbParam(id) => ("search_themoviedb", id)
    case FormatParam(f) => ("format", f)
    case LimitParam(n) => ("limit", Itoa(n))
    case SortParam(s) => ("sort", s)
    case RankedParam(b) => ("ranked", if b then "1" else "0")
    case MinSeedersParam(n) => ("min_seeders", Itoa(n))
    case MinLeechersParam(n) => ("min_leechers", Itoa(n))
  }

  /** The query pairs of a chain, in order, leaving out the categories. */
  function Pairs(ps: seq<Param>, escape: string -> string): seq<Pair>
    decreases |ps|
  {
    if |ps| == 0 then []
    else if ps[0].CategoryParam? then Pairs(ps[1..], escape)
    else [PairOf(ps[0], escape)] + Pairs(ps[1..], escape)
  }

  /** The category codes of a chain, in order. */
  function Codes(ps: seq<Param>): seq<int>
    decreases |ps|
  {
    if |ps| == 0 then []
    else if ps[0].CategoryParam? then [ps[0].code] + Codes(ps[1..])
    else Codes(ps[1..])
  }

  lemma ApplyEffect(a: Api, p: Param, escape: string -> string)
    ensures p.CategoryParam? ==> Apply(a, p, escape) == a.(categories := a.categories + [p.code])
    ensures !p.CategoryParam? ==>
              var kv := PairOf(p, escape);
              Apply(a, p, escape) == a.(query := a.query + Fragment(kv.0, kv.1))
  {
  }

  lemma PairsCons(ps: seq<Param>, escape: string -> string)
    requires |ps| > 0
    ensures ps[0].CategoryParam? ==> Pairs(ps, escape) == Pairs(ps[1..], escape)
    ensures ps[0].CategoryParam? ==> Codes(ps) == [ps[0].code] + Codes(ps[1..])
    ensures !ps[0].CategoryParam? ==> Pairs(ps, escape) == [PairOf(ps[0], escape)] + Pairs(ps[1..], escape)
    ensures !ps[0].CategoryParam? ==> Codes(ps) == Codes(ps[1..])
  {
  }

  /** The pairs one link contributes: none for a category. */
  function LinkPairs(p: Param, escape: string -> string): seq<Pair> {
    if p.CategoryParam? then [] else [PairOf(p, escape)]
  }

  lemma ApplyQuery(a: Api, p: Param, escape: string -> string)
    ensures Apply(a, p, escape).query == a.query + Fragments(LinkPairs(p, escape))
  {
    ApplyEffect(a, p, escape);
    if !p.CategoryParam? {
      FragmentsSingle(PairOf(p, escape));
    } else {
      assert a.query + Fragments([]) == a.query;
    }
  }

  lemma {:induction false} ConfigureQuery(a: Api, ps: seq<Param>, escape: string -> string)
    ensures Configure(a, ps, escape).query == a.query + Fragments(Pairs(ps, escape))
    decreases |ps|
  {
    if |ps| == 0 {
      assert a.query + Fragments([]) == a.query;
    } else {
      var b := Apply(a, ps[0], escape);
      var rest := ps[1..];
      var link := LinkPairs(ps[0], escape);
      assert Configure(a, ps, escape) == Configure(b, rest, escape);
      assert Pairs(ps, escape) == link + Pairs(rest, escape);
      assert b.query == a.query + Fragments(link) by {
        ApplyQuery(a, ps[0], escape);
      }
      ConfigureQuery(b, rest, escape);
      FragmentsConcat(link, Pairs(rest, escape));
      Associate(a.query, Fragments(link), Fragments(Pairs(rest, escape)));
    }
  }

  lemma {:induction false} ConfigureCategories(a: Api, ps: seq<Param>, escape: string -> string)
    ensures Configure(a, ps, escape).categories == a.categories + Codes(ps)
    decreases |ps|
  {
    if |ps| == 0 {
      assert a.categories + [] == a.categories;
    } else {
      var b := Apply(a, ps[0], escape);
      var rest := ps[1..];
      assert Configure(a, ps, escape) == Configure(b, rest, escape);
      ConfigureCategories(b, rest, escape);
      PairsCons(ps, escape);
      ApplyEffect(a, ps[0], escape);
      if ps[0].CategoryParam? {
        assert b.categories + Codes(rest) == a.categories + ([ps[0].code] + Codes(rest));
      } else {
        assert b.categories == a.categories && Codes(ps) == Codes(rest);
      }
    }
  }

  lemma {:induction false} ConfigureKeeps(a: Api, ps: seq<Param>, escape: string -> string)
    ensures Configure(a, ps, escape).(query := a.query, categories := a.categories) == a
    decreases |ps|
  {
    if |ps| > 0 {
      ApplyEffect(a, ps[0], escape);
      ConfigureKeeps(Apply(a, ps[0], escape), ps[1..], escape);
    }
  }

  /** A builder chain appends the fragments of its non-category links to the
      query and its category codes to the list, both in chain order, and
      changes nothing else. */
  lemma ConfigureEffect(a: Api, ps: seq<Param>, escape: string -> string)
    ensures Configure(a, ps, escape).query == a.query + Fragments(Pairs(ps, escape))
    ensures Configure(a, ps, escape).categories == a.categories + Codes(ps)
    ensures Configure(a, ps, escape).(query := a.query, categories := a.categories) == a
  {
    ConfigureQuery(a, ps, escape);
    ConfigureCategories(a, ps, escape);
    ConfigureKeeps(a, ps, escape);
  }

  /** The values a chain supplies contain no `&` (the real `url.QueryEscape`
      guarantees this for the search string; the id, format and sort values
      are sent as given). */
  predicate SafeParam(p: Param, escape: string -> string) {
    match p
    case TextParam(t) => '&' !in escape(t)
    case TvdbParam(id) => '&' !in id
    case ImdbParam(id) => '&' !in id
    case TheMovieDbParam(id) => '&' !in id
    case FormatParam(f) => '&' !in f
    case SortParam(s) => '&' !in s
    case _ => true
  }

  lemma {:induction false} PairsWellFormed(ps: seq<Param>, escape: string -> string)
    requires forall i :: 0 <= i < |ps| ==> SafeParam(ps[i], escape)
    ensures WellFormed(Pairs(ps, escape))
    decreases |ps|
  {
    if |ps| > 0 {
      var rest := ps[1..];
      assert forall i :: 0 <= i < |rest| ==> SafeParam(rest[i], escape) by {
        forall i | 0 <= i < |rest| ensures SafeParam(rest[i], escape) {
          assert rest[i] == ps[i + 1];
        }
      }
      PairsWellFormed(rest, escape);
      assert Pairs(ps, escape) == LinkPairs(ps[0], escape) + Pairs(rest, escape);
      LinkWellFormed(ps[0], escape);
      WellFormedConcat(LinkPairs(ps[0], escape), Pairs(rest, escape));
    }
  }

  lemma LinkWellFormed(p: Param, escape: string -> string)
    requires SafeParam(p, escape)
    ensures WellFormed(LinkPairs(p, escape))
  {
    if !p.CategoryParam? {
      var kv := PairOf(p, escape);
      match p {
        case LimitParam(n) => ItoaHasNoDelimiters(n);
        case MinSeedersParam(n) => ItoaHasNoDelimiters(n);
        case MinLeechersParam(n) => ItoaHasNoDelimiters(n);
        case _ =>
      }
      assert WellFormedPair(kv);
      assert LinkPairs(p, escape) == [kv];
    }
  }

  /** Appended to an empty query, a chain of safe links reads back as exactly
      its own key/value pairs, in chain order. */
  lemma ConfigureDecodes(a: Api, ps: seq<Param>, escape: string -> string)
    requires a.query == ""
    requires forall i :: 0 <= i < |ps| ==> SafeParam(ps[i], escape)
    ensures ParseQuery(Configure(a, ps, escape).query) == Pairs(ps, escape)
  {
    ConfigureEffect(a, ps, escape);
    PairsWellFormed(ps, escape);
    ParseFragments(Pairs(ps, escape));
    assert "" + Fragments(Pairs(ps, escape)) == Fragments(Pairs(ps, escape));
  }

  // Request assembly, as `call` and `renewToken` perform it.

  /** The single `&category=` fragment of a non-empty list; nothing for an empty one. */
  function CategoryPairs(codes: seq<int>): (kvs: seq<Pair>)
    ensures |codes| == 0 <==> |kvs| == 0
    ensures |kvs| <= 1
  {
    if |codes| == 0 then [] else [("category", CategoryValue(codes))]
  }

  function CategoryFragment(codes: seq<int>): string {
    Fragments(CategoryPairs(codes))
  }

  /** The query once the categories are merged in. */
  function FinalQuery(a: Api): string {
    a.query + CategoryFragment(a.categories)
  }

  /** The full search URL: base URL, token, query, application id. */
  function RequestUrl(url: string, token: string, query: string, appId: string): string {
    url + Fragment("token", token) + query + Fragment("app_id", appId)
  }

  function SearchUrl(a: Api): string {
    RequestUrl(a.url, a.apiToken.token, FinalQuery(a), a.appId)
  }

  function TokenUrl(a: Api): string {
    a.url + "get_token=get_token" + Fragment("app_id", a.appId)
  }

  /** `initQuery`: empty query state, everything else kept. */
  function InitQuery(a: Api): (r: Api)
    ensures r.query == "" && r.categories == []
    ensures r.(query := a.query, categories := a.categories) == a
  {
    a.(query := "", categories := [])
  }

  lemma Associate(x: string, y: string, z: string)
    ensures x + y + z == x + (y + z)
  {
  }

  lemma Regroup(u: string, ft: string, fk: string, fc: string, fi: string)
    ensures u + ft + (fk + fc) + fi == u + (ft + fk + fc + fi)
  {
  }

  lemma SearchUrlAsFragments(a: Api, kvs: seq<Pair>)
    requires a.query == Fragments(kvs)
    ensures SearchUrl(a)
            == a.url + Fragments([("token", a.apiToken.token)] + kvs + CategoryPairs(a.categories) + [("app_id", a.appId)])
  {
    var t := [("token", a.apiToken.token)];
    var cats := CategoryPairs(a.categories);
    var id := [("app_id", a.appId)];
    var ft, fk, fc, fi := Fragments(t), Fragments(kvs), Fragments(cats), Fragments(id);
    assert Fragments(t + kvs + cats + id) == ft + fk + fc + fi by {
      FragmentsConcat(t, kvs);
      FragmentsConcat(t + kvs, cats);
      FragmentsConcat(t + kvs + cats, id);
    }
    assert SearchUrl(a) == a.url + ft + (fk + fc) + fi by {
      FragmentsSingle(("token", a.apiToken.token));
      FragmentsSingle(("app_id", a.appId));
    }
    Regroup(a.url, ft, fk, fc, fi);
  }

  /** The whole search URL reads back, after the base URL, as the token, the
      query's own pairs, one `category` pair joining the codes with `;` in
      order when there are any, and the application id. */
  lemma SearchUrlDecodes(a: Api, kvs: seq<Pair>)
    requires a.query == Fragments(kvs) && WellFormed(kvs)
    requires '&' !in a.url && '&' !in a.apiToken.token && '&' !in a.appId
    ensures ParseQuery(SearchUrl(a))
            == [("token", a.apiToken.token)] + kvs + CategoryPairs(a.categories) + [("app_id", a.appId)]
    ensures |a.categories| > 0 ==> ParseCategories(CategoryValue(a.categories)) == Some(a.categories)
  {
    var cats := CategoryPairs(a.categories);
    if |a.categories| > 0 {
      CategoryRoundTrip(a.categories);
    }
    var t := [("token", a.apiToken.token)];
    var id := [("app_id", a.appId)];
    assert WellFormed(t + kvs + cats + id) by {
      SinglePairWellFormed("token", a.apiToken.token);
      SinglePairWellFormed("app_id", a.appId);
      CategoryPairsWellFormed(a.categories);
      WellFormedConcat(t, kvs);
      WellFormedConcat(t + kvs, cats);
      WellFormedConcat(t + kvs + cats, id);
    }
    SearchUrlAsFragments(a, kvs);
    ParsePrefixedFragments(a.url, t + kvs + cats + id);
  }

  lemma SinglePairWellFormed(key: string, value: string)
    requires '&' !in key && '=' !in key && '&' !in value
    ensures WellFormed([(key, value)])
  {
    assert WellFormedPair([(key, value)][0]);
  }

  lemma CategoryPairsWellFormed(codes: seq<int>)
    ensures WellFormed(CategoryPairs(codes))
  {
    if |codes| > 0 {
      CategoryRoundTrip(codes);
      SinglePairWellFormed("category", CategoryValue(codes));
    }
  }

  // The functional options of `New`.

  datatype Setting =
    | APIURL(url: string)
    | TokenExpiration(duration: int)
    | RequestDelay(duration: int)
    | MaxRetries(retries: Int)

  /** The `API` value `New` starts from, before any option. */
  function Defaults(appId: string): Api {
    Api("", NoToken, [], appId, DefaultRequestDelay, DefaultTokenExpiration, DefaultApiUrl, DefaultMaxRetries)
  }

  function ApplySetting(a: Api, s: Setting): Api {
    match s
    case APIURL(u) => a.(url := u)
    case TokenExpiration(d) => a.(tokenExpiration := d)
    case RequestDelay(d) => a.(reqDelay := d)
    case MaxRetries(r) => a.(maxRetries := r)
  }

  /** The options, applied in the order given. */
  function ApplySettings(a: Api, ss: seq<Setting>): Api
    decreases |ss|
  {
    if |ss| == 0 then a else ApplySettings(ApplySetting(a, ss[0]), ss[1..])
  }

  /** The value the last option of one kind carries, looking from the end;
      `default` when no option of that kind is given. */
  function LastSet<T>(ss: seq<Setting>, pick: Setting -> Option<T>, default: T): T
    decreases |ss|
  {
    if |ss| == 0 then default
    else match pick(ss[|ss| - 1])
      case Some(v) => v
      case None => LastSet(ss[..|ss| - 1], pick, default)
  }

  function PickUrl(s: Setting): Option<string> {
    if s.APIURL? then Some(s.url) else None
  }

  function PickExpiration(s: Setting): Option<int> {
    if s.TokenExpiration? then Some(s.duration) else None
  }

  function PickDelay(s: Setting): Option<int> {
    if s.RequestDelay? then Some(s.duration) else None
  }

  function PickRetries(s: Setting): Option<Int> {
    if s.MaxRetries? then Some(s.retries) else None
  }

  lemma {:induction false} LastSetCons<T>(s: Setting, rest: seq<Setting>, pick: Setting -> Option<T>, default: T)
    ensures LastSet([s] + rest, pick, default)
            == LastSet(rest, pick, if pick(s).Some? then pick(s).value else default)
    decreases |rest|
  {
    var ss := [s] + rest;
    if |rest| > 0 {
      assert ss[|ss| - 1] == rest[|rest| - 1];
      assert ss[..|ss| - 1] == [s] + rest[..|rest| - 1];
      LastSetCons(s, rest[..|rest| - 1], pick, default);
    } else {
      assert ss[..|ss| - 1] == [];
    }
  }

  /** Each option overrides the earlier ones of its kind: after the fold,
      every configurable field holds the last value given for it, or what it
      held before; the query state, token and application id are untouched. */
  lemma {:induction false} LastOptionWins(a: Api, ss: seq<Setting>)
    ensures ApplySettings(a, ss).url == LastSet(ss, PickUrl, a.url)
    ensures ApplySettings(a, ss).tokenExpiration == LastSet(ss, PickExpiration, a.tokenExpiration)
    ensures ApplySettings(a, ss).reqDelay == LastSet(ss, PickDelay, a.reqDelay)
    ensures ApplySettings(a, ss).maxRetries == LastSet(ss, PickRetries, a.maxRetries)
    ensures ApplySettings(a, ss).(url := a.url, tokenExpiration := a.tokenExpiration,
                                  reqDelay := a.reqDelay, maxRetries := a.maxRetries) == a
    decreases |ss|
  {
    if |ss| > 0 {
      var b := ApplySetting(a, ss[0]);
      LastOptionWins(b, ss[1..]);
      assert ss == [ss[0]] + ss[1..];
      LastSetCons(ss[0], ss[1..], PickUrl, a.url);
      LastSetCons(ss[0], ss[1..], PickExpiration, a.tokenExpiration);
      LastSetCons(ss[0], ss[1..], PickDelay, a.reqDelay);
      LastSetCons(ss[0], ss[1..], PickRetries, a.maxRetries);
    }
  }

  /** `New` makes the base URL end in `?`, leaving one that already does alone. */
  function NormalizeUrl(u: string): (r: string)
    ensures EndsWith(r, "?")
    ensures EndsWith(u, "?") ==> r == u
    ensures !EndsWith(u, "?") ==> |r| == |u| + 1 && r[..|u|] == u
  {
    if EndsWith(u, "?") then u else u + "?"
  }

  lemma NormalizeUrlIdempotent(u: string)
    ensures NormalizeUrl(NormalizeUrl(u)) == NormalizeUrl(u)
  {
  }
}

=== FILE: controller.dfy ===
/** The call cycle of `call`, its terminal builders `Search` and `List`, and
    the constructor `New`. Each step is a pure function from the `Api` value,
    the environment and the trace so far to the new ones. */
module Controller {
  import opened Wrappers
  import opened Errors
  import opened Text
  import opened Tokens
  import opened Responses
  import opened Transport
  import opened QueryCodec
  import opened Client

  /** A logical request of `call`: a token request or a search request, each
      issued through `makeRequest`. */
  datatype Request = TokenRequest(url: string) | SearchRequest(url: string)

  /** Outcome of `renewToken`. */
  datatype Renewal = Renewal(result: Result<Token, ApiError>, trace: Trace)

  /** The token `renewToken` returns next to its error: the new one on
      success, Go's zero token otherwise. `call` stores it either way. */
  function Held(r: Result<Token, ApiError>): Token {
    if r.Success? then r.value else NoToken
  }

  /** `renewToken`: fetch a token through the retrying transport, decode it and
      stamp it with the clock reading taken after the answer arrived. */
  function RenewToken(a: Api, env: Env, tr: Trace): (r: Renewal)
    ensures |tr.wire| <= |r.trace.wire| && r.trace.wire[..|tr.wire|] == tr.wire
    ensures r.result.Success? ==>
              && r.result.value.expires == env.clock(tr.readings) + a.tokenExpiration
              && r.trace.readings == tr.readings + 1
              && |r.trace.wire| > |tr.wire|
              && r.trace.wire[|r.trace.wire| - 1] == TokenUrl(a)
              && env.replies(|r.trace.wire| - 1).Response?
              && env.replies(|r.trace.wire| - 1).status == StatusOK
              && env.replies(|r.trace.wire| - 1).body.token == Some(r.result.value.token)
    ensures r.result.Failure? ==> r.trace.readings == tr.readings && r.result.error != ExpiredToken
    ensures var sent := MakeRequest(env, tr, TokenUrl(a), a.maxRetries);
            && r.trace.wire == sent.trace.wire
            && (r.result.Failure? <==> sent.result.Failure? || sent.result.value.token.None?)
            && (sent.result.Failure? ==> r.result == Failure(sent.result.error))
            && (sent.result.Success? && sent.result.value.token.None? ==> r.result == Failure(TokenDecodeError))
  {
    var sent := MakeRequest(env, tr, TokenUrl(a), a.maxRetries);
    var result := Minted(sent.result, env.clock(sent.trace.readings), a.tokenExpiration);
    Renewal(result, if result.Success? then sent.trace.(readings := sent.trace.readings + 1) else sent.trace)
  }

  /** The token a transport result yields, stamped at `now`: the transport's
      error as is, or the decode error for a 200 answer without a token. */
  function Minted(sent: Result<Body, ApiError>, now: int, expiration: int): Result<Token, ApiError> {
    match sent
    case Failure(e) => Failure(e)
    case Success(body) =>
      if body.token.Some? then Success(Stamp(body.token.value, now, expiration)) else Failure(TokenDecodeError)
  }

  datatype Fetched = Fetched(result: Result<Envelope, ApiError>, trace: Trace)

  /** What the last reply `makeRequest` received means to `getResults`: the
      transport's verdict, and for a 200 answer the decoded envelope. */
  function Answer(reply: Reply): Result<Envelope, ApiError> {
    Decoded(Verdict(reply))
  }

  /** The envelope a transport result decodes to: its error as is, or the
      decoded body of a 200 answer. */
  function Decoded(sent: Result<Body, ApiError>): Result<Envelope, ApiError> {
    match sent
    case Failure(e) => Failure(e)
    case Success(body) =>
      if body.envelope.Some? then Success(body.envelope.value) else Failure(BodyDecodeError)
  }

  /** `getResults`: send one search URL and decode the envelope. The result
      is what the last reply received means, or the build error when no
      request could be sent. */
  function GetResults(a: Api, env: Env, tr: Trace, url: string): (r: Fetched)
    ensures r.trace == MakeRequest(env, tr, url, a.maxRetries).trace
    ensures |r.trace.wire| == |tr.wire| ==> r.result == Failure(RequestBuildError)
    ensures |r.trace.wire| > |tr.wire| ==> r.result == Answer(env.replies(|r.trace.wire| - 1))
    ensures r.trace.readings == tr.readings
    ensures |tr.wire| <= |r.trace.wire| && r.trace.wire[..|tr.wire|] == tr.wire
    ensures r.result.Success? ==>
              && |r.trace.wire| > |tr.wire|
              && r.trace.wire[|r.trace.wire| - 1] == url
              && env.replies(|r.trace.wire| - 1).Response?
              && env.replies(|r.trace.wire| - 1).status == StatusOK
              && env.replies(|r.trace.wire| - 1).body.envelope == Some(r.result.value)
    ensures r.result.Failure? ==> r.result.error != ExpiredToken
  {
    var sent := MakeRequest(env, tr, url, a.maxRetries);
    Fetched(Decoded(sent.result), sent.trace)
  }

  datatype Checked = Checked(valid: bool, trace: Trace)

  /** `APIToken.IsValid()`, which reads the clock only for a non-empty token. */
  function CheckToken(t: Token, env: Env, tr: Trace): (c: Checked)
    ensures c.valid == IsValid(t, env.clock(tr.readings))
    ensures c.trace.wire == tr.wire
  {
    if t.token == "" then Checked(false, tr)
    else Checked(IsValid(t, env.clock(tr.readings)), tr.(readings := tr.readings + 1))
  }

  /** How the request is resent after the token was renewed: the code resends
      the URL it built before the renewal; `Rebuild` builds it again with the
      new token. */
  datatype RetryPolicy = ResendSame | Rebuild

  /** What `call` returns, with the `API` value it leaves behind, the
      logical requests it made in order, and the trace afterwards. */
  datatype Exit = Exit(result: Result<Results, ApiError>, api: Api, log: seq<Request>, trace: Trace)

  /** The URL resent after a renewal that produced `renewed`. */
  function RetryUrl(policy: RetryPolicy, a: Api, renewed: Token): string {
    match policy
    case ResendSame => SearchUrl(a)
    case Rebuild => SearchUrl(a.(apiToken := renewed))
  }

  /** The tail of `call` after an expired-token answer to `SearchUrl(a)`:
      renew, then send once more; that second answer is final. The log gains
      the token request and, if the renewal worked, the resend; a failed
      renewal ends the call with an error and Go's zero token. */
  function Retry(policy: RetryPolicy, a: Api, env: Env, tr: Trace): (r: Exit)
    ensures r.api == InitQuery(a).(apiToken := r.api.apiToken)
    ensures 1 <= |r.log| <= 2 && r.log[0] == TokenRequest(TokenUrl(a))
    ensures |r.log| == 1 ==> r.result.Failure? && r.api.apiToken == NoToken
    ensures |r.log| == 2 ==> r.log[1] == SearchRequest(RetryUrl(policy, a, r.api.apiToken))
    ensures var rn := RenewToken(a, env, tr);
            && r.api.apiToken == Held(rn.result)
            && (|r.log| == 2 <==> rn.result.Success?)
            && (|r.log| == 1 ==> r.result == Failure(rn.result.error) && r.trace == rn.trace)
    ensures |r.log| == 2 ==>
              var f := GetResults(a, env, RenewToken(a, env, tr).trace, RetryUrl(policy, a, r.api.apiToken));
              r.result == Classified(f.result) && r.trace == f.trace
  {
    var rn := RenewToken(a, env, tr);
    var renewed := a.(apiToken := Held(rn.result));
    var token := TokenRequest(TokenUrl(a));
    if rn.result.Failure? then
      Exit(Failure(rn.result.error), InitQuery(renewed), [token], rn.trace)
    else
      var url := RetryUrl(policy, a, renewed.apiToken);
      var f := GetResults(a, env, rn.trace, url);
      match f.result
      case Failure(e) => Exit(Failure(e), InitQuery(renewed), [token, SearchRequest(url)], f.trace)
      case Success(envelope) =>
        Exit(ProcessResponse(envelope), InitQuery(renewed), [token, SearchRequest(url)], f.trace)
  }

  /** The answer to a search request as `call` sees it: a failure of
      `getResults` as is, otherwise the classified envelope. */
  function Classified(f: Result<Envelope, ApiError>): Result<Results, ApiError> {
    match f
    case Failure(e) => Failure(e)
    case Success(envelope) => ProcessResponse(envelope)
  }

  /** The answer `call` gets to its first search request. */
  function FirstAnswer(a: Api, env: Env, tr: Trace): Result<Results, ApiError> {
    Classified(GetResults(a, env, tr, SearchUrl(a)).result)
  }

  /** `call` from the category merge on, with the token already settled:
      send, classify, and on the expired-token signal retry once. */
  function Dispatch(policy: RetryPolicy, a: Api, env: Env, tr: Trace): (r: Exit)
    ensures r.api == InitQuery(a).(apiToken := r.api.apiToken)
  {
    var url := SearchUrl(a);
    var f := GetResults(a, env, tr, url);
    match f.result
    case Failure(e) => Exit(Failure(e), InitQuery(a), [SearchRequest(url)], f.trace)
    case Success(envelope) =>
      var data := ProcessResponse(envelope);
      if data == Failure(ExpiredToken) then
        var retried := Retry(policy, a, env, f.trace);
        retried.(log := [SearchRequest(url)] + retried.log)
      else Exit(data, InitQuery(a), [SearchRequest(url)], f.trace)
  }

  /** `call` under a retry policy: renew an invalid token first, then
      dispatch. The query state is reset on every way out, and only the token
      and the query state ever change. */
  function CallWith(policy: RetryPolicy, a: Api, env: Env, tr: Trace): (r: Exit)
    ensures r.api.query == "" && r.api.categories == []
    ensures r.api.(apiToken := a.apiToken, query := a.query, categories := a.categories) == a
  {
    var c := CheckToken(a.apiToken, env, tr);
    if c.valid then
      Dispatch(policy, a, env, c.trace)
    else
      var rn := RenewToken(a, env, c.trace);
      var renewed := a.(apiToken := Held(rn.result));
      var token := TokenRequest(TokenUrl(a));
      if rn.result.Failure? then
        Exit(Failure(rn.result.error), InitQuery(renewed), [token], rn.trace)
      else
        var d := Dispatch(policy, renewed, env, rn.trace);
        d.(log := [token] + d.log)
  }

  /** The requests a dispatch from the settled value `s` makes: the search
      built from `s`; after an expired-token answer, a renewal and, if that
      worked, the resend, whose URL the policy decides. A failed renewal
      leaves Go's zero token; the expired-token signal is the result only
      after the resend. */
  predicate Dispatched(policy: RetryPolicy, s: Api, log: seq<Request>, r: Exit) {
    && 1 <= |log| <= 3
    && log[0] == SearchRequest(SearchUrl(s))
    && (|log| == 1 ==> r.api.apiToken == s.apiToken)
    && (|log| >= 2 ==> log[1] == TokenRequest(TokenUrl(s)))
    && (|log| == 2 ==> r.result.Failure? && r.api.apiToken == NoToken)
    && (|log| == 3 ==> log[2] == SearchRequest(RetryUrl(policy, s, r.api.apiToken)))
    && (r.result == Failure(ExpiredToken) ==> |log| == 3)
  }

  /** A dispatch makes one search request, and only after an expired-token
      answer a renewal and at most one more. Any other first answer is the
      result. */
  lemma DispatchLog(policy: RetryPolicy, a: Api, env: Env, tr: Trace)
    ensures var r := Dispatch(policy, a, env, tr);
            && Dispatched(policy, a, r.log, r)
            && (FirstAnswer(a, env, tr) != Failure(ExpiredToken) <==> |r.log| == 1)
            && (|r.log| == 1 ==> r.result == FirstAnswer(a, env, tr))
  {
  }

  /** The value `call` dispatches from: `a` itself when its token is valid,
      otherwise `a` holding what the renewal returned. */
  function Settled(a: Api, env: Env, tr: Trace): Api {
    var c := CheckToken(a.apiToken, env, tr);
    if c.valid then a else a.(apiToken := Held(RenewToken(a, env, c.trace).result))
  }

  /** The requests one `call` makes: with a valid token, a dispatch;
      otherwise a renewal first, and after a failed one nothing more, with
      the error as result and Go's zero token held. Only the token of the
      settled value `s` may differ from `a`. */
  predicate Called(policy: RetryPolicy, a: Api, s: Api, valid: bool, r: Exit) {
    && 1 <= |r.log| <= 4
    && s.(apiToken := a.apiToken) == a
    && (valid ==> s == a && Dispatched(policy, a, r.log, r))
    && (!valid ==>
          && r.log[0] == TokenRequest(TokenUrl(a))
          && (|r.log| == 1 ==> r.result.Failure? && r.result != Failure(ExpiredToken) && r.api.apiToken == NoToken)
          && (|r.log| > 1 ==> Dispatched(policy, s, r.log[1..], r)))
  }

  /** With an invalid token, the call ends right after the token request
      exactly when that renewal fails, and then with the renewal's own error
      and trace: no search request is sent. */
  predicate RenewsFirst(a: Api, env: Env, tr: Trace, r: Exit) {
    !IsValid(a.apiToken, env.clock(tr.readings)) ==>
      var rn := RenewToken(a, env, CheckToken(a.apiToken, env, tr).trace);
      && (|r.log| == 1 <==> rn.result.Failure?)
      && (rn.result.Failure? ==> r.result == Failure(rn.result.error) && r.trace == rn.trace)
  }

  /** Once the token is settled (valid, or renewed successfully), the
      dispatch part `d` of the log is a single search exactly when the first
      answer is not the expired-token signal, and then that answer is the
      result. So the expired-token answer, and only it, brings the renewal
      and the resend. */
  predicate AnswersFirst(a: Api, env: Env, tr: Trace, r: Exit) {
    var c := CheckToken(a.apiToken, env, tr);
    var rn := RenewToken(a, env, c.trace);
    (c.valid || rn.result.Success?) ==>
      && |r.log| >= 1
      && var s := if c.valid then a else a.(apiToken := rn.result.value);
         var t := if c.valid then c.trace else rn.trace;
         var d := if c.valid then r.log else r.log[1..];
         && (FirstAnswer(s, env, t) != Failure(ExpiredToken) <==> |d| == 1)
         && (|d| == 1 ==> r.result == FirstAnswer(s, env, t))
  }

  lemma CallLog(policy: RetryPolicy, a: Api, env: Env, tr: Trace)
    ensures Called(policy, a, Settled(a, env, tr), IsValid(a.apiToken, env.clock(tr.readings)),
                   CallWith(policy, a, env, tr))
    ensures RenewsFirst(a, env, tr, CallWith(policy, a, env, tr))
    ensures AnswersFirst(a, env, tr, CallWith(policy, a, env, tr))
  {
    var c := CheckToken(a.apiToken, env, tr);
    if c.valid {
      DispatchLog(policy, a, env, c.trace);
    } else {
      var rn := RenewToken(a, env, c.trace);
      if rn.result.Success? {
        var renewed := a.(apiToken := rn.result.value);
        DispatchLog(policy, renewed, env, rn.trace);
        var d := Dispatch(policy, renewed, env, rn.trace);
        assert ([TokenRequest(TokenUrl(a))] + d.log)[1..] == d.log;
      }
    }
  }

  /** Number of search requests in a log. */
  function Searches(log: seq<Request>): nat {
    if log == [] then 0 else (if log[0].SearchRequest? then 1 else 0) + Searches(log[1..])
  }

  /** Number of token requests in a log. */
  function Renewals(log: seq<Request>): nat {
    if log == [] then 0 else (if log[0].TokenRequest? then 1 else 0) + Renewals(log[1..])
  }

  lemma DispatchedCounts(policy: RetryPolicy, a: Api, log: seq<Request>, r: Exit)
    requires Dispatched(policy, a, log, r)
    ensures Searches(log) == (if |log| == 3 then 2 else 1)
    ensures Renewals(log) == (if |log| == 1 then 0 else 1)
  {
    var tail := log[1..];
    assert Searches(log) == 1 + Searches(tail) && Renewals(log) == Renewals(tail);
    if |log| == 1 {
      assert tail == [];
    } else {
      assert Searches(tail) == Searches(tail[1..]) && Renewals(tail) == 1 + Renewals(tail[1..]);
      if |log| == 2 {
        assert tail[1..] == [];
      } else {
        assert tail[1..] == [log[2]] && log[2].SearchRequest?;
        assert Searches([log[2]]) == 1 + Searches([log[2]][1..]);
        assert [log[2]][1..] == [];
      }
    }
  }

  /** Every search request in a log carries the same URL. */
  predicate SameSearches(log: seq<Request>) {
    forall i, j | 0 <= i < j < |log| && log[i].SearchRequest? && log[j].SearchRequest? :: log[i] == log[j]
  }

  lemma ResentSame(s: Api, log: seq<Request>, r: Exit)
    requires Dispatched(ResendSame, s, log, r)
    ensures SameSearches(log)
  {
  }

  lemma SameSearchesAfterRenewal(t: Request, log: seq<Request>)
    requires t.TokenRequest? && SameSearches(log)
    ensures SameSearches([t] + log)
  {
    var full := [t] + log;
    forall i, j | 0 <= i < j < |full| && full[i].SearchRequest? && full[j].SearchRequest?
      ensures full[i] == full[j]
    {
      assert full[i] == log[i - 1] && full[j] == log[j - 1];
    }
  }

  /** `call` sends at most two search requests and at most two token
      requests, and reports the expired-token signal only when its second
      search was answered with it, right after a renewal. */
  lemma CallBounds(policy: RetryPolicy, a: Api, env: Env, tr: Trace)
    ensures var r := CallWith(policy, a, env, tr);
            && 1 <= |r.log| <= 4
            && Searches(r.log) <= 2 && Renewals(r.log) <= 2
            && (r.result == Failure(ExpiredToken) ==>
                  Searches(r.log) == 2 && r.log[|r.log| - 1].SearchRequest? && r.log[|r.log| - 2].TokenRequest?)
  {
    CallLog(policy, a, env, tr);
    CalledBounds(policy, a, Settled(a, env, tr), IsValid(a.apiToken, env.clock(tr.readings)),
                 CallWith(policy, a, env, tr));
  }

  lemma CalledBounds(policy: RetryPolicy, a: Api, s: Api, valid: bool, r: Exit)
    requires Called(policy, a, s, valid, r)
    ensures Searches(r.log) <= 2 && Renewals(r.log) <= 2
    ensures r.result == Failure(ExpiredToken) ==>
              Searches(r.log) == 2 && r.log[|r.log| - 1].SearchRequest? && r.log[|r.log| - 2].TokenRequest?
  {
    if valid {
      DispatchedCounts(policy, a, r.log, r);
    } else if |r.log| == 1 {
      assert r.log[1..] == [];
    } else {
      DispatchedCounts(policy, s, r.log[1..], r);
    }
  }

  /** `call` as written: after a renewal it resends the URL it built before,
      so every search request of one call carries the same URL. */
  function Call(a: Api, env: Env, tr: Trace): (r: Exit)
    ensures r.api.query == "" && r.api.categories == []
    ensures r.api.(apiToken := a.apiToken, query := a.query, categories := a.categories) == a
    ensures Called(ResendSame, a, Settled(a, env, tr), IsValid(a.apiToken, env.clock(tr.readings)), r)
    ensures RenewsFirst(a, env, tr, r)
    ensures AnswersFirst(a, env, tr, r)
    ensures SameSearches(r.log)
  {
    CallLog(ResendSame, a, env, tr);
    var r := CallWith(ResendSame, a, env, tr);
    if r.log[0].SearchRequest? then
      ResentSame(a, r.log, r);
      r
    else if |r.log| == 1 then
      r
    else
      ResentSame(Settled(a, env, tr), r.log[1..], r);
      SameSearchesAfterRenewal(r.log[0], r.log[1..]);
      assert [r.log[0]] + r.log[1..] == r.log;
      r
  }

  /** `call` with the resend rebuilt from the renewed token: the last search
      request carries the token the `API` value holds afterwards. */
  function CallRenewed(a: Api, env: Env, tr: Trace): (r: Exit)
    ensures r.api.query == "" && r.api.categories == []
    ensures r.api.(apiToken := a.apiToken, query := a.query, categories := a.categories) == a
    ensures CarriesHeldToken(a, r)
  {
    CallLog(Rebuild, a, env, tr);
    var r := CallWith(Rebuild, a, env, tr);
    RebuiltCarriesHeldToken(a, Settled(a, env, tr), IsValid(a.apiToken, env.clock(tr.readings)), r);
    r
  }

  /** The log is non-empty, and if it ends with a search request, that
      request is the search built from `a` with the token held at the end. */
  predicate CarriesHeldToken(a: Api, r: Exit) {
    && |r.log| >= 1
    && (r.log[|r.log| - 1].SearchRequest? ==>
          r.log[|r.log| - 1] == SearchRequest(SearchUrl(a.(apiToken := r.api.apiToken))))
  }

  lemma RebuiltCarriesHeldToken(a: Api, s: Api, valid: bool, r: Exit)
    requires Called(Rebuild, a, s, valid, r)
    ensures CarriesHeldToken(a, r)
  {
    if valid {
      assert a.(apiToken := a.apiToken) == a;
    } else if |r.log| > 1 {
      assert r.log[1..][|r.log[1..]| - 1] == r.log[|r.log| - 1];
      assert s.(apiToken := r.api.apiToken) == a.(apiToken := r.api.apiToken);
      assert s.(apiToken := s.apiToken) == s;
    }
  }

  /** What every search URL built from `a` ends with, whatever the token:
      the query, the merged categories and the application id. */
  function Tail(a: Api): string {
    FinalQuery(a) + Fragment("app_id", a.appId)
  }

  /** Every search request in a log ends with `tail`. */
  predicate SearchesEndWith(log: seq<Request>, tail: string) {
    forall i | 0 <= i < |log| && log[i].SearchRequest? :: EndsWith(log[i].url, tail)
  }

  lemma SearchUrlTail(s: Api)
    ensures EndsWith(SearchUrl(s), Tail(s))
  {
    var head := s.url + Fragment("token", s.apiToken.token);
    Associate(head, FinalQuery(s), Fragment("app_id", s.appId));
    assert SearchUrl(s) == head + Tail(s);
  }

  lemma CalledTail(policy: RetryPolicy, a: Api, s: Api, valid: bool, r: Exit)
    requires Called(policy, a, s, valid, r)
    ensures SearchesEndWith(r.log, Tail(a))
  {
    assert Tail(s) == Tail(a);
    SearchUrlTail(s);
    SearchUrlTail(s.(apiToken := r.api.apiToken));
    assert Tail(s.(apiToken := r.api.apiToken)) == Tail(a);
    var d := if valid then r.log else r.log[1..];
    assert forall i | 0 <= i < |d| && d[i].SearchRequest? :: EndsWith(d[i].url, Tail(a));
    if !valid {
      forall i | 0 <= i < |r.log| && r.log[i].SearchRequest?
        ensures EndsWith(r.log[i].url, Tail(a))
      {
        assert r.log[i] == d[i - 1];
      }
    }
  }

  /** Every search request of one `call`, the resend included, carries the
      query built before it, the merged categories and the application id. */
  lemma CallCarriesQuery(policy: RetryPolicy, a: Api, env: Env, tr: Trace)
    ensures SearchesEndWith(CallWith(policy, a, env, tr).log, Tail(a))
  {
    CallLog(policy, a, env, tr);
    CalledTail(policy, a, Settled(a, env, tr), IsValid(a.apiToken, env.clock(tr.readings)),
               CallWith(policy, a, env, tr));
  }

  lemma EndsWithLonger(u: string, x: string, y: string)
    requires EndsWith(u, x + y)
    ensures EndsWith(u, y)
  {
    assert u[|u| - |y|..] == u[|u| - |x + y|..][|x|..];
  }

  /** `Tail` of `a` with `mode` appended to its query ends with the mode
      marker, the merged categories and the application id. */
  lemma ModeTail(a: Api, mode: string, u: string)
    requires EndsWith(u, Tail(a.(query := a.query + Fragment("mode", mode))))
    ensures EndsWith(u, Fragment("mode", mode) + CategoryFragment(a.categories) + Fragment("app_id", a.appId))
  {
    var m := Fragment("mode", mode);
    var c := CategoryFragment(a.categories);
    var i := Fragment("app_id", a.appId);
    assert Tail(a.(query := a.query + m)) == a.query + m + c + i;
    Associate(a.query, m, c);
    Associate(a.query, m + c, i);
    Associate(m, c, i);
    EndsWithLonger(u, a.query, m + c + i);
  }

  /** `Search`: mark the query as a search and `call`. As written, a
      resend after a renewal repeats the first search. */
  function Search(a: Api, env: Env, tr: Trace): (r: Exit)
    ensures r.api.query == "" && r.api.categories == []
    ensures r.api.(apiToken := a.apiToken, query := a.query, categories := a.categories) == a
    ensures var b := a.(query := a.query + Fragment("mode", "search"));
            && Called(ResendSame, b, Settled(b, env, tr), IsValid(a.apiToken, env.clock(tr.readings)), r)
            && RenewsFirst(b, env, tr, r)
            && AnswersFirst(b, env, tr, r)
    ensures SameSearches(r.log)
    ensures SearchesEndWith(r.log, Fragment("mode", "search") + CategoryFragment(a.categories) + Fragment("app_id", a.appId))
  {
    Marked(a, "search", env, tr)
  }

  /** `List`: mark the query as a listing and `call`. As written, a resend
      after a renewal repeats the first search. */
  function List(a: Api, env: Env, tr: Trace): (r: Exit)
    ensures r.api.query == "" && r.api.categories == []
    ensures r.api.(apiToken := a.apiToken, query := a.query, categories := a.categories) == a
    ensures var b := a.(query := a.query + Fragment("mode", "list"));
            && Called(ResendSame, b, Settled(b, env, tr), IsValid(a.apiToken, env.clock(tr.readings)), r)
            && RenewsFirst(b, env, tr, r)
            && AnswersFirst(b, env, tr, r)
    ensures SameSearches(r.log)
    ensures SearchesEndWith(r.log, Fragment("mode", "list") + CategoryFragment(a.categories) + Fragment("app_id", a.appId))
  {
    Marked(a, "list", env, tr)
  }

  /** `call` after appending the `mode` fragment to the query. */
  function Marked(a: Api, mode: string, env: Env, tr: Trace): (r: Exit)
    ensures r.api.query == "" && r.api.categories == []
    ensures r.api.(apiToken := a.apiToken, query := a.query, categories := a.categories) == a
    ensures var b := a.(query := a.query + Fragment("mode", mode));
            && Called(ResendSame, b, Settled(b, env, tr), IsValid(a.apiToken, env.clock(tr.readings)), r)
            && RenewsFirst(b, env, tr, r)
            && AnswersFirst(b, env, tr, r)
    ensures SameSearches(r.log)
    ensures SearchesEndWith(r.log, Fragment("mode", mode) + CategoryFragment(a.categories) + Fragment("app_id", a.appId))
  {
    var b := a.(query := a.query + Fragment("mode", mode));
    var r := Call(b, env, tr);
    CallCarriesQuery(ResendSame, b, env, tr);
    forall i | 0 <= i < |r.log| && r.log[i].SearchRequest?
      ensures EndsWith(r.log[i].url, Fragment("mode", mode) + CategoryFragment(a.categories) + Fragment("app_id", a.appId))
    {
      ModeTail(a, mode, r.log[i].url);
    }
    r
  }

  /** What `New` returns, with the trace afterwards. */
  datatype Created = Created(result: Result<Api, ApiError>, trace: Trace)

  /** The value `New` builds before fetching the first token: the defaults,
      the options in order, and the base URL made to end with '?'. */
  function Configured(appId: string, settings: seq<Setting>): Api {
    var a := ApplySettings(Defaults(appId), settings);
    a.(url := NormalizeUrl(a.url))
  }

  /** `New`: configure, then fetch the first token, whose failure is wrapped
      and returns no value. On success the token is stamped with the clock,
      the query state is empty and the rest is the configured value. */
  function New(appId: string, settings: seq<Setting>, env: Env, tr: Trace): (r: Created)
    ensures var rn := RenewToken(Configured(appId, settings), env, tr);
            && r.trace == rn.trace
            && (r.result.Failure? <==> rn.result.Failure?)
            && (r.result.Failure? ==> r.result.error == RenewalFailed(rn.result.error))
            && (r.result.Success? ==> r.result.value.apiToken == rn.result.value)
    ensures r.result.Failure? ==> r.trace.readings == tr.readings
    ensures r.result.Success? ==>
              var a := r.result.value;
              && a.(apiToken := NoToken) == Configured(appId, settings)
              && a.appId == appId && EndsWith(a.url, "?")
              && a.query == "" && a.categories == []
  {
    LastOptionWins(Defaults(appId), settings);
    var a := Configured(appId, settings);
    var rn := RenewToken(a, env, tr);
    match rn.result
    case Failure(e) => Created(Failure(RenewalFailed(e)), rn.trace)
    case Success(t) =>
      var b := InitQuery(a.(apiToken := t));
      assert b.(apiToken := NoToken) == a && TokenUrl(b) == TokenUrl(a);
      Created(Success(b), rn.trace)
  }

  /** The client a successful renewal of `c` installs holds the token string
      of the last 200 answer, sent to the token URL of `c`, stamped with the
      lifetime after the one clock reading taken. */
  predicate Stamped(a: Api, env: Env, tr: Trace, after: Trace) {
    && a.apiToken.expires == env.clock(tr.readings) + a.tokenExpiration
    && after.readings == tr.readings + 1
    && |after.wire| > |tr.wire| && after.wire[|after.wire| - 1] == TokenUrl(a)
    && env.replies(|after.wire| - 1).Response?
    && env.replies(|after.wire| - 1).status == StatusOK
    && env.replies(|after.wire| - 1).body.token == Some(a.apiToken.token)
  }

  lemma RenewedStamped(c: Api, env: Env, tr: Trace)
    ensures var rn := RenewToken(c, env, tr);
            rn.result.Success? ==> Stamped(InitQuery(c.(apiToken := rn.result.value)), env, tr, rn.trace)
  {
    var rn := RenewToken(c, env, tr);
    if rn.result.Success? {
      var a := InitQuery(c.(apiToken := rn.result.value));
      assert TokenUrl(a) == TokenUrl(c) && a.tokenExpiration == c.tokenExpiration;
    }
  }

  /** A client `New` returns holds the token string of the last 200 answer,
      sent to the token URL of its own configuration, stamped with the
      lifetime after the one clock reading taken. */
  lemma NewStamped(appId: string, settings: seq<Setting>, env: Env, tr: Trace)
    ensures var r := New(appId, settings, env, tr);
            r.result.Success? ==> Stamped(r.result.value, env, tr, r.trace)
  {
    var c := Configured(appId, settings);
    RenewedStamped(c, env, tr);
    var rn := RenewToken(c, env, tr);
    if rn.result.Success? {
      assert New(appId, settings, env, tr) == Created(Success(InitQuery(c.(apiToken := rn.result.value))), rn.trace);
    }
  }

  /** Each setting of the value `New` configures is the one the last option
      of its kind carries, or the default when there is none; the base URL
      then ends with '?', and nothing else differs from the defaults. */
  lemma NewConfiguration(appId: string, settings: seq<Setting>)
    ensures var a := Configured(appId, settings);
            && a.url == NormalizeUrl(LastSet(settings, PickUrl, DefaultApiUrl))
            && a.tokenExpiration == LastSet(settings, PickExpiration, DefaultTokenExpiration)
            && a.reqDelay == LastSet(settings, PickDelay, DefaultRequestDelay)
            && a.maxRetries == LastSet(settings, PickRetries, DefaultMaxRetries)
            && a.query == "" && a.apiToken == NoToken && a.categories == [] && a.appId == appId
  {
    LastOptionWins(Defaults(appId), settings);
  }
}

=== FILE: decimal.dfy ===
/** Decimal rendering of integers, as `strconv.Itoa` and the `%d` verb print
    them, together with a parser that is its inverse. */
module Decimal {
  import opened Wrappers

  predicate IsDigit(c: char) {
    '0' <= c <= '9'
  }

  predicate AllDigits(s: string) {
    forall i :: 0 <= i < |s| ==> IsDigit(s[i])
  }

  function DigitChar(d: nat): (c: char)
    requires d < 10
    ensures IsDigit(c) && c as int - '0' as int == d
  {
    ('0' as int + d) as char
  }

  /** The digits of `n`, most significant first, without leading zeros. */
  function Digits(n: nat): (s: string)
    ensures |s| >= 1 && AllDigits(s)
    ensures s[0] == '0' ==> n == 0 && s == "0"
    decreases n
  {
    if n < 10 then [DigitChar(n)] else Digits(n / 10) + [DigitChar(n % 10)]
  }

  /** `strconv.Itoa(n)`: an optional minus sign followed by the digits of |n|. */
  function Itoa(n: int): (s: string)
    ensures |s| >= 1
    ensures n < 0 <==> s[0] == '-'
    ensures n < 0 ==> AllDigits(s[1..]) && |s| >= 2
    ensures n >= 0 ==> AllDigits(s)
    ensures n >= 0 && s[0] == '0' ==> s == "0"
    ensures n < 0 ==> s[1] != '0'
  {
    if n < 0 then "-" + Digits(-n) else Digits(n)
  }

  /** The number a string of digits denotes. */
  function ValueOf(s: string): nat
    requires AllDigits(s)
  {
    if |s| == 0 then 0
    else ValueOf(s[..|s| - 1]) * 10 + (s[|s| - 1] as int - '0' as int)
  }

  /** Reads an optionally negative decimal integer; anything else is `None`. */
  function Atoi(s: string): Option<int> {
    if |s| >= 2 && s[0] == '-' && AllDigits(s[1..]) then Some(0 - ValueOf(s[1..]))
    else if |s| >= 1 && AllDigits(s) then Some(ValueOf(s))
    else None
  }

  lemma {:induction false} DigitsValue(n: nat)
    ensures ValueOf(Digits(n)) == n
    decreases n
  {
    if n >= 10 {
      DigitsValue(n / 10);
      var s := Digits(n);
      assert s[..|s| - 1] == Digits(n / 10);
    }
  }

  /** Reading back what `Itoa` printed gives the number again. */
  lemma ItoaRoundTrip(n: int)
    ensures Atoi(Itoa(n)) == Some(n)
  {
    if n < 0 {
      var d := Digits(-n);
      var s := "-" + d;
      assert s[1..] == d;
      assert ValueOf(d) == -n by {
        DigitsValue(-n);
      }
      assert Atoi(s) == Some(0 - ValueOf(d));
    } else {
      assert ValueOf(Digits(n)) == n by {
        DigitsValue(n);
      }
    }
  }

  /** A printed integer holds none of the characters that delimit a query. */
  lemma ItoaHasNoDelimiters(n: int)
    ensures '&' !in Itoa(n) && '=' !in Itoa(n) && ';' !in Itoa(n)
  {
    var s := Itoa(n);
    forall i | 0 <= i < |s|
      ensures s[i] != '&' && s[i] != '=' && s[i] != ';'
    {
      if i > 0 || n >= 0 {
        assert n < 0 ==> s[i] == s[1..][i - 1];
      }
    }
  }
}

=== FILE: errors.dfy ===
/** The errors the client can return, as tagged variants instead of the
    message strings the code formats. */
module Errors {

  datatype ApiError =
    | RequestBuildError                         // http.NewRequest rejected the URL
    | TransportError                            // http.Client.Do failed
    | RateLimitExceeded                         // "maximum number of attempts reached"
    | BadStatus(status: int)                    // a status other than 200 and 429
    | BodyDecodeError                           // the body is not a JSON envelope
    | TokenDecodeError                          // "error decoding token"
    | PayloadDecodeError                        // torrent_results did not unmarshal
    | ServiceError(message: string, code: int)  // an error the service reported
    | UnknownResponse                           // neither results nor error text
    | ExpiredToken                              // expiredTokenError
    | RenewalFailed(cause: ApiError)            // "error renewing token" from New
}

=== FILE: goint.dfy ===
/** Go's `int` on a 64-bit platform, where arithmetic wraps around in two's
    complement. */
module GoInt {
  const MinInt: int := -0x8000_0000_0000_0000
  const MaxInt: int := 0x7FFF_FFFF_FFFF_FFFF

  /** The values a Go `int` can hold. */
  type Int = n: int | -0x8000_0000_0000_0000 <= n <= 0x7FFF_FFFF_FFFF_FFFF

  /** `n--`: the true difference, reduced modulo 2^64 into the range of
      `Int`, so the minimum wraps around to the maximum. */
  function Decrement(n: Int): (r: Int)
    ensures (n - 1 - r) % 0x1_0000_0000_0000_0000 == 0
    ensures r < n || (n == MinInt && r == MaxInt)
  {
    if n == MinInt then MaxInt else n - 1
  }
}

=== FILE: querycodec.dfy ===
/** The wire format of the client's query strings: a run of `&key=value`
    fragments, with the category codes joined by `;` inside one value. The
    parsers here are not part of the client; they are the inverses against
    which the encoders are checked. */
module QueryCodec {
  import opened Wrappers
  import opened Text
  import opened Decimal

  type Pair = (string, string)

  /** One `&key=value` fragment, as the builders append it. */
  function Fragment(key: string, value: string): string {
    "&" + key + "=" + value
  }

  function Fragments(kvs: seq<Pair>): string
    decreases |kvs|
  {
    if |kvs| == 0 then "" else Fragment(kvs[0].0, kvs[0].1) + Fragments(kvs[1..])
  }

  function Piece(kv: Pair): string {
    kv.0 + "=" + kv.1
  }

  function Pieces(kvs: seq<Pair>): (ps: seq<string>)
    ensures |ps| == |kvs|
    ensures forall i :: 0 <= i < |kvs| ==> ps[i] == Piece(kvs[i])
  {
    seq(|kvs|, i requires 0 <= i < |kvs| => Piece(kvs[i]))
  }

  /** Splits one `key=value` piece at its first `=`. */
  function KeyValue(piece: string): Pair {
    if '=' in piece then
      var i := IndexOf(piece, '=');
      (piece[..i], piece[i + 1..])
    else
      (piece, "")
  }

  /** The pairs of a query string; what precedes the first `&` is not a fragment and is dropped. */
  function ParseQuery(q: string): seq<Pair> {
    var pieces := Split(q, '&');
    seq(|pieces| - 1, i requires 0 <= i < |pieces| - 1 => KeyValue(pieces[i + 1]))
  }

  /** A pair survives the round trip when its key holds no `&` or `=` and its value no `&`. */
  predicate WellFormedPair(kv: Pair) {
    '&' !in kv.0 && '=' !in kv.0 && '&' !in kv.1
  }

  predicate WellFormed(kvs: seq<Pair>) {
    forall i :: 0 <= i < |kvs| ==> WellFormedPair(kvs[i])
  }

  lemma WellFormedConcat(k1: seq<Pair>, k2: seq<Pair>)
    requires WellFormed(k1) && WellFormed(k2)
    ensures WellFormed(k1 + k2)
  {
    forall i | 0 <= i < |k1 + k2|
      ensures WellFormedPair((k1 + k2)[i])
    {
      if i >= |k1| {
        assert (k1 + k2)[i] == k2[i - |k1|];
      }
    }
  }

  lemma FragmentsSingle(kv: Pair)
    ensures Fragments([kv]) == Fragment(kv.0, kv.1)
  {
    assert [kv][1..] == [];
    assert Fragment(kv.0, kv.1) + "" == Fragment(kv.0, kv.1);
  }

  lemma {:induction false} FragmentsConcat(k1: seq<Pair>, k2: seq<Pair>)
    ensures Fragments(k1 + k2) == Fragments(k1) + Fragments(k2)
    decreases |k1|
  {
    if |k1| == 0 {
      assert k1 + k2 == k2;
    } else {
      assert (k1 + k2)[0] == k1[0];
      assert (k1 + k2)[1..] == k1[1..] + k2;
      FragmentsConcat(k1[1..], k2);
    }
  }

  lemma {:induction false} FragmentsAsJoin(kvs: seq<Pair>)
    requires |kvs| >= 1
    ensures Fragments(kvs) == "&" + Join(Pieces(kvs), '&')
    decreases |kvs|
  {
    if |kvs| > 1 {
      FragmentsAsJoin(kvs[1..]);
      assert Pieces(kvs)[1..] == Pieces(kvs[1..]);
    }
  }

  lemma KeyValuePiece(kv: Pair)
    requires '=' !in kv.0
    ensures KeyValue(Piece(kv)) == kv
  {
    IndexOfSeparator(kv.0, '=', kv.1);
    var p := Piece(kv);
    assert p == kv.0 + ['='] + kv.1;
    assert p[..|kv.0|] == kv.0;
    assert p[|kv.0| + 1..] == kv.1;
  }

  lemma SplitPrefixed(prefix: string, ps: seq<string>)
    requires '&' !in prefix
    requires |ps| >= 1
    requires forall i :: 0 <= i < |ps| ==> '&' !in ps[i]
    ensures Split(prefix + "&" + Join(ps, '&'), '&') == [prefix] + ps
  {
    var j := Join(ps, '&');
    var q := prefix + "&" + j;
    assert q == prefix + ['&'] + j;
    SplitJoin(ps, '&');
    IndexOfSeparator(prefix, '&', j);
    assert q[|prefix|] == '&';
    assert q[..|prefix|] == prefix;
    assert q[|prefix| + 1..] == j;
  }

  lemma ParsePieces(q: string, prefix: string, kvs: seq<Pair>)
    requires Split(q, '&') == [prefix] + Pieces(kvs)
    requires forall i :: 0 <= i < |kvs| ==> '=' !in kvs[i].0
    ensures ParseQuery(q) == kvs
  {
    forall i | 0 <= i < |kvs|
      ensures ParseQuery(q)[i] == kvs[i]
    {
      KeyValuePiece(kvs[i]);
    }
  }

  /** Parsing a prefix without `&` followed by well-formed fragments yields exactly those pairs, in order. */
  lemma ParsePrefixedFragments(prefix: string, kvs: seq<Pair>)
    requires '&' !in prefix
    requires WellFormed(kvs)
    ensures ParseQuery(prefix + Fragments(kvs)) == kvs
  {
    if |kvs| == 0 {
      assert prefix + Fragments(kvs) == prefix;
    } else {
      var ps := Pieces(kvs);
      forall i | 0 <= i < |ps|
        ensures '&' !in ps[i]
      {
        assert ps[i] == kvs[i].0 + ['='] + kvs[i].1;
      }
      FragmentsAsJoin(kvs);
      assert prefix + Fragments(kvs) == prefix + "&" + Join(ps, '&');
      SplitPrefixed(prefix, ps);
      ParsePieces(prefix + Fragments(kvs), prefix, kvs);
    }
  }

  /** The special case the builders rely on: a query made only of fragments parses back to its pairs. */
  lemma ParseFragments(kvs: seq<Pair>)
    requires WellFormed(kvs)
    ensures ParseQuery(Fragments(kvs)) == kvs
  {
    ParsePrefixedFragments("", kvs);
    assert "" + Fragments(kvs) == Fragments(kvs);
  }

  /** The printed category codes, for the `category` value. */
  function CodeStrings(codes: seq<int>): (ss: seq<string>)
    ensures |ss| == |codes|
    ensures forall i :: 0 <= i < |codes| ==> ss[i] == Itoa(codes[i])
  {
    seq(|codes|, i requires 0 <= i < |codes| => Itoa(codes[i]))
  }

  /** The value of the `category` parameter: the codes joined by `;` in order. */
  function CategoryValue(codes: seq<int>): string {
    Join(CodeStrings(codes), ';')
  }

  function ParseInts(ss: seq<string>): Option<seq<int>>
    decreases |ss|
  {
    if |ss| == 0 then Some([])
    else match (Atoi(ss[0]), ParseInts(ss[1..]))
      case (Some(n), Some(rest)) => Some([n] + rest)
      case _ => None
  }

  /** Reads a `category` value back into its codes. */
  function ParseCategories(v: string): Option<seq<int>> {
    ParseInts(Split(v, ';'))
  }

  lemma {:induction false} ParseCodeStrings(codes: seq<int>)
    ensures ParseInts(CodeStrings(codes)) == Some(codes)
    decreases |codes|
  {
    if |codes| > 0 {
      ItoaRoundTrip(codes[0]);
      assert CodeStrings(codes)[1..] == CodeStrings(codes[1..]);
      ParseCodeStrings(codes[1..]);
      assert codes == [codes[0]] + codes[1..];
    }
  }

  /** A non-empty category list survives joining and splitting unchanged. */
  lemma CategoryRoundTrip(codes: seq<int>)
    requires |codes| >= 1
    ensures ParseCategories(CategoryValue(codes)) == Some(codes)
    ensures '&' !in CategoryValue(codes)
  {
    var ss := CodeStrings(codes);
    forall i | 0 <= i < |ss|
      ensures ';' !in ss[i]
    {
      ItoaHasNoDelimiters(codes[i]);
    }
    SplitJoin(ss, ';');
    ParseCodeStrings(codes);
    forall i | 0 <= i < |ss|
      ensures '&' !in ss[i]
    {
      ItoaHasNoDelimiters(codes[i]);
    }
    JoinAvoids(ss, ';', '&');
  }

  lemma {:induction false} JoinAvoids(parts: seq<string>, sep: char, c: char)
    requires c != sep
    requires forall i :: 0 <= i < |parts| ==> c !in parts[i]
    ensures c !in Join(parts, sep)
    decreases |parts|
  {
    if |parts| > 1 {
      JoinAvoids(parts[1..], sep, c);
    }
  }
}

=== FILE: responses.dfy ===
/** The service's JSON envelope and its classification by `processResponse`.
    JSON decoding is not modelled: the envelope says whether its raw
    `torrent_results` payload decodes, and to what. */
module Responses {
  import opened Wrappers
  import opened Errors

  const TokenExpiredCode: int := 4
  const ImdbNotFoundCode: int := 10
  const NoResultsCode: int := 20

  newtype uint64 = x: int | 0 <= x < 0x1_0000_0000_0000_0000

  datatype EpisodeInfo = EpisodeInfo(
    imdb: string, tvdb: string, tvRage: string, theMovieDb: string,
    airDate: string, seasonNum: string, episodeNum: string, title: string)

  datatype TorrentResult = TorrentResult(
    title: string, filename: string, category: string, download: string,
    seeders: int, leechers: int, size: uint64, pubDate: string, ranked: int,
    infoPage: string, episodeInfo: EpisodeInfo)

  /** Go's `TorrentResults` slice: `Nil` is the nil slice, distinct from an empty list. */
  datatype Results = Nil | Torrents(items: seq<TorrentResult>)

  /** The raw `torrent_results` member: absent, or present with the outcome of unmarshalling it. */
  datatype Payload = Absent | Raw(decoded: Option<Results>)

  datatype Envelope = Envelope(torrents: Payload, error: string, errorCode: int)

  predicate Benign(code: int) {
    code == ImdbNotFoundCode || code == NoResultsCode
  }

  /** `processResponse`: a present payload wins over the error fields; then
      non-empty error text is dispatched on its code; otherwise the envelope
      is unusable. */
  function ProcessResponse(e: Envelope): (r: Result<Results, ApiError>)
    ensures r.Success? <==>
              (e.torrents.Raw? && e.torrents.decoded.Some?)
              || (e.torrents.Absent? && e.error != "" && Benign(e.errorCode))
    ensures r.Success? && e.torrents.Raw? ==> r.value == e.torrents.decoded.value
    ensures r.Success? && e.torrents.Absent? ==> r.value == Nil
    ensures r == Failure(PayloadDecodeError) <==> e.torrents == Raw(None)
    ensures r == Failure(ExpiredToken) <==>
              e.torrents.Absent? && e.error != "" && e.errorCode == TokenExpiredCode
    ensures r == Failure(UnknownResponse) <==> e.torrents.Absent? && e.error == ""
    ensures r.Failure? && r.error.ServiceError? ==>
              r.error == ServiceError(e.error, e.errorCode)
              && e.errorCode != TokenExpiredCode && !Benign(e.errorCode)
    ensures r.Failure? ==>
              r.error in {PayloadDecodeError, ExpiredToken, UnknownResponse}
              || r.error.ServiceError?
  {
    match e.torrents
    case Raw(decoded) =>
      if decoded.Some? then Success(decoded.value) else Failure(PayloadDecodeError)
    case Absent =>
      if e.error != "" then
        if e.errorCode == TokenExpiredCode then Failure(ExpiredToken)
        else if e.errorCode == ImdbNotFoundCode then Success(Nil)
        else if e.errorCode == NoResultsCode then Success(Nil)
        else Failure(ServiceError(e.error, e.errorCode))
      else
        Failure(UnknownResponse)
  }

  /** With a payload present, the error text and code make no difference. */
  lemma PayloadTakesPrecedence(d: Option<Results>, e1: string, c1: int, e2: string, c2: int)
    ensures ProcessResponse(Envelope(Raw(d), e1, c1)) == ProcessResponse(Envelope(Raw(d), e2, c2))
  {
  }

  /** Without error text the error code is ignored. */
  lemma CodeIgnoredWithoutText(c1: int, c2: int)
    ensures ProcessResponse(Envelope(Absent, "", c1)) == ProcessResponse(Envelope(Absent, "", c2))
    ensures ProcessResponse(Envelope(Absent, "", c1)) == Failure(UnknownResponse)
  {
  }

  /** An envelope with exactly one of payload and error text is never unusable. */
  lemma WellFormedEnvelopeIsUsable(e: Envelope)
    requires e.torrents.Raw? != (e.error != "")
    ensures ProcessResponse(e) != Failure(UnknownResponse)
  {
  }
}

=== FILE: scenarios.dfy ===
/** Runs of `call` against scripted environments: the cases the repository's
    own tests exercise, plus the run that shows the resend after a renewal
    still carrying the old token. The client value is any one whose token is
    valid at the first clock reading. */
module Scenarios {
  import opened Wrappers
  import opened Errors
  import opened Tokens
  import opened Responses
  import opened Transport
  import opened QueryCodec
  import opened Client
  import opened Controller
  import opened GoInt

  const Start := Trace([], 0, 0)

  function Ok(e: Envelope): Reply {
    Response(StatusOK, Body(Some(e), None))
  }

  /** A token answer carrying `token`. */
  function Granted(token: string): Reply {
    Response(StatusOK, Body(None, Some(token)))
  }

  const EmptyList := Envelope(Raw(Some(Torrents([]))), "", 0)
  const Expired := Envelope(Absent, "Invalid token", TokenExpiredCode)

  /** An environment that always accepts the URL, reads 0 from the clock
      and answers the k-th request with `script(k)`. */
  function Scripted(script: nat -> Reply): Env {
    Env(script, _ => true, _ => 0)
  }

  /** The expired-token answer, then `token`, then `last`. */
  function Renewing(token: string, last: Envelope): Env {
    Scripted(k => if k == 0 then Ok(Expired) else if k == 1 then Granted(token) else Ok(last))
  }

  /** A reply other than 429 ends `makeRequest` after one request. */
  lemma AnsweredAtOnce(env: Env, tr: Trace, url: string, n: Int, reply: Reply)
    requires env.accepts(url) && env.replies(|tr.wire|) == reply && !Throttled(reply)
    ensures MakeRequest(env, tr, url, n) == Sent(Verdict(reply), tr.(wire := tr.wire + [url]))
  {
  }

  lemma Searched(a: Api, env: Env, tr: Trace, url: string, e: Envelope)
    requires env.accepts(url) && env.replies(|tr.wire|) == Ok(e)
    ensures GetResults(a, env, tr, url) == Fetched(Success(e), tr.(wire := tr.wire + [url]))
  {
    AnsweredAtOnce(env, tr, url, a.maxRetries, Ok(e));
  }

  lemma Renewed(a: Api, env: Env, tr: Trace, token: string)
    requires env.accepts(TokenUrl(a)) && env.replies(|tr.wire|) == Granted(token)
    ensures RenewToken(a, env, tr)
            == Renewal(Success(Token(token, env.clock(tr.readings) + a.tokenExpiration)),
                       Trace(tr.wire + [TokenUrl(a)], tr.readings + 1, tr.sleeps))
  {
    AnsweredAtOnce(env, tr, TokenUrl(a), a.maxRetries, Granted(token));
  }

  /** A valid token and one answer: the classified answer is the result,
      after exactly one search request. */
  lemma AnsweredOnce(a: Api, e: Envelope)
    requires IsValid(a.apiToken, 0) && ProcessResponse(e) != Failure(ExpiredToken)
    ensures var r := Call(a, Scripted(_ => Ok(e)), Start);
            r.result == ProcessResponse(e) && r.log == [SearchRequest(SearchUrl(a))]
            && r.api == InitQuery(a)
  {
    var env := Scripted(_ => Ok(e));
    assert CheckToken(a.apiToken, env, Start) == Checked(true, Trace([], 1, 0));
    Searched(a, env, Trace([], 1, 0), SearchUrl(a), e);
  }

  lemma EmptyPayload(a: Api)
    requires IsValid(a.apiToken, 0)
    ensures Call(a, Scripted(_ => Ok(EmptyList)), Start).result == Success(Torrents([]))
  {
    AnsweredOnce(a, EmptyList);
  }

  lemma NoResults(a: Api)
    requires IsValid(a.apiToken, 0)
    ensures Call(a, Scripted(_ => Ok(Envelope(Absent, "No results found", NoResultsCode))), Start).result
            == Success(Nil)
  {
    AnsweredOnce(a, Envelope(Absent, "No results found", NoResultsCode));
  }

  lemma ServiceFailure(a: Api)
    requires IsValid(a.apiToken, 0)
    ensures Call(a, Scripted(_ => Ok(Envelope(Absent, "error", 5))), Start).result
            == Failure(ServiceError("error", 5))
  {
    AnsweredOnce(a, Envelope(Absent, "error", 5));
  }

  lemma UndecodablePayload(a: Api)
    requires IsValid(a.apiToken, 0)
    ensures Call(a, Scripted(_ => Ok(Envelope(Raw(None), "", 0))), Start).result == Failure(PayloadDecodeError)
  {
    AnsweredOnce(a, Envelope(Raw(None), "", 0));
  }

  /** Two 429 answers, then the payload. */
  function Throttling(): Env {
    Scripted(k => if k < 2 then Response(StatusTooManyRequests, Body(None, None)) else Ok(EmptyList))
  }

  /** `makeRequest` in `Throttling` sends the URL three times, sleeping
      twice, and returns the payload. */
  lemma ThrottledRequests(url: string, n: Int)
    requires n >= 3
    ensures MakeRequest(Throttling(), Trace([], 1, 0), url, n)
            == Sent(Success(Body(Some(EmptyList), None)), Trace([url, url, url], 1, 2))
  {
    var env := Throttling();
    assert env.replies(0) == Response(StatusTooManyRequests, Body(None, None));
    ThrottledOnce(env, Trace([], 1, 0), url, n);
    assert env.replies(1) == Response(StatusTooManyRequests, Body(None, None));
    ThrottledOnce(env, Trace([url], 1, 1), url, n - 1);
    assert env.replies(2) == Ok(EmptyList);
    AnsweredAtOnce(env, Trace([url, url], 1, 2), url, n - 2, Ok(EmptyList));
  }

  /** A 429 answer while the decremented counter is positive: one sleep,
      then `makeRequest` goes on with that counter. */
  lemma ThrottledOnce(env: Env, tr: Trace, url: string, n: Int)
    requires env.accepts(url) && Throttled(env.replies(|tr.wire|)) && n >= 2
    ensures MakeRequest(env, tr, url, n)
            == MakeRequest(env, Trace(tr.wire + [url], tr.readings, tr.sleeps + 1), url, n - 1)
  {
    var left := Decrement(n);
    assert left == n - 1 && left > 0;
    var sent := tr.(wire := tr.wire + [url]);
    assert sent.(sleeps := sent.sleeps + 1) == Trace(tr.wire + [url], tr.readings, tr.sleeps + 1);
  }

  /** Two 429 answers, then the payload: the same URL is sent three times,
      with a back-off sleep before each resend, and the call succeeds. */
  lemma ThrottledThenServed(a: Api)
    requires IsValid(a.apiToken, 0) && a.maxRetries >= 3
    ensures var r := Call(a, Throttling(), Start);
            && r.result == Success(Torrents([]))
            && r.trace.wire == [SearchUrl(a), SearchUrl(a), SearchUrl(a)]
            && r.trace.sleeps == 2
  {
    var env := Throttling();
    var u := SearchUrl(a);
    var t0 := Trace([], 1, 0);
    assert CheckToken(a.apiToken, env, Start) == Checked(true, t0);
    ThrottledRequests(u, a.maxRetries);
    assert GetResults(a, env, t0, u) == Fetched(Success(EmptyList), Trace([u, u, u], 1, 2));
  }

  /** With an empty token the call renews first; a refused connection ends it
      with the transport error and the zero token stored. */
  lemma RenewalRefused(a: Api)
    requires a.apiToken.token == ""
    ensures var r := Call(a, Scripted(_ => Refused), Start);
            && r.result == Failure(TransportError)
            && r.api.apiToken == NoToken
            && r.log == [TokenRequest(TokenUrl(a))]
  {
    var env := Scripted(_ => Refused);
    assert MakeRequest(env, Start, TokenUrl(a), a.maxRetries) == Sent(Failure(TransportError), Trace([TokenUrl(a)], 0, 0));
  }

  /** The renewal and resend of a call from `a` in `Renewing(token, last)`,
      once the first search was answered with the expired-token signal. */
  lemma RetryServed(policy: RetryPolicy, a: Api, token: string, last: Envelope)
    ensures var env := Renewing(token, last);
            var t := Token(token, a.tokenExpiration);
            var u := SearchUrl(a);
            Retry(policy, a, env, Trace([u], 1, 0))
            == Exit(ProcessResponse(last), InitQuery(a.(apiToken := t)),
                    [TokenRequest(TokenUrl(a)), SearchRequest(RetryUrl(policy, a, t))],
                    Trace([u, TokenUrl(a), RetryUrl(policy, a, t)], 2, 0))
  {
    var env := Renewing(token, last);
    var t := Token(token, a.tokenExpiration);
    var u := SearchUrl(a);
    var tr := Trace([u], 1, 0);
    assert env.replies(|tr.wire|) == Granted(token);
    Renewed(a, env, tr, token);
    var tr' := Trace([u, TokenUrl(a)], 2, 0);
    assert RenewToken(a, env, tr) == Renewal(Success(t), tr');
    assert env.replies(|tr'.wire|) == Ok(last);
    var v := RetryUrl(policy, a, t);
    Searched(a.(apiToken := t), env, tr', v, last);
    assert GetResults(a.(apiToken := t), env, tr', v) == Fetched(Success(last), Trace([u, TokenUrl(a), v], 2, 0));
  }

  /** The whole call in `Renewing(token, last)`: valid token, expired-token
      answer, renewal, resend whose answer is the result. */
  lemma RenewedRun(policy: RetryPolicy, a: Api, token: string, last: Envelope)
    requires IsValid(a.apiToken, 0)
    ensures var t := Token(token, a.tokenExpiration);
            CallWith(policy, a, Renewing(token, last), Start)
            == Exit(ProcessResponse(last), InitQuery(a.(apiToken := t)),
                    [SearchRequest(SearchUrl(a)), TokenRequest(TokenUrl(a)), SearchRequest(RetryUrl(policy, a, t))],
                    Trace([SearchUrl(a), TokenUrl(a), RetryUrl(policy, a, t)], 2, 0))
  {
    var env := Renewing(token, last);
    var u := SearchUrl(a);
    assert CheckToken(a.apiToken, env, Start) == Checked(true, Trace([], 1, 0));
    Searched(a, env, Trace([], 1, 0), u, Expired);
    RetryServed(policy, a, token, last);
    var retried := Retry(policy, a, env, Trace([u], 1, 0));
    assert Dispatch(policy, a, env, Trace([], 1, 0)) == retried.(log := [SearchRequest(u)] + retried.log);
  }

  /** An expired-token answer, a renewal, then the payload. */
  lemma ExpiredThenServed(a: Api)
    requires IsValid(a.apiToken, 0)
    ensures var r := Call(a, Renewing("fresh", EmptyList), Start);
            && r.result == Success(Torrents([]))
            && r.api.apiToken == Token("fresh", a.tokenExpiration)
            && |r.log| == 3
  {
    RenewedRun(ResendSame, a, "fresh", EmptyList);
  }

  /** Expired twice: the signal reaches the caller. */
  lemma ExpiredTwice(a: Api)
    requires IsValid(a.apiToken, 0)
    ensures Call(a, Renewing("fresh", Expired), Start).result == Failure(ExpiredToken)
  {
    RenewedRun(ResendSame, a, "fresh", Expired);
  }

  /** The resend after the renewal carries the old token although the client
      now holds "fresh", a different token of the same length. */
  lemma StaleTokenResent(a: Api)
    requires IsValid(a.apiToken, 0) && |a.apiToken.token| == 5 && a.apiToken.token != "fresh"
    ensures var r := Call(a, Renewing("fresh", EmptyList), Start);
            && r.api.apiToken.token == "fresh"
            && |r.log| == 3
            && r.log[2] == SearchRequest(SearchUrl(a))
            && r.log[2] != SearchRequest(SearchUrl(a.(apiToken := r.api.apiToken)))
  {
    var t := Token("fresh", a.tokenExpiration);
    RenewedRun(ResendSame, a, "fresh", EmptyList);
    TokenVisible(a, t);
  }

  /** In the same run the corrected call resends with "fresh". */
  lemma FreshTokenResent(a: Api)
    requires IsValid(a.apiToken, 0)
    ensures var r := CallRenewed(a, Renewing("fresh", EmptyList), Start);
            && r.api.apiToken.token == "fresh"
            && |r.log| == 3
            && r.log[2] == SearchRequest(SearchUrl(a.(apiToken := r.api.apiToken)))
  {
    RenewedRun(Rebuild, a, "fresh", EmptyList);
  }

  /** The token sits at a fixed offset of the search URL, so URLs built from
      the same value with token strings of one length but different content
      differ. */
  lemma TokenVisible(a: Api, t: Token)
    requires a.apiToken.token != t.token && |a.apiToken.token| == |t.token|
    ensures SearchUrl(a) != SearchUrl(a.(apiToken := t))
  {
    var b := a.(apiToken := t);
    var head := a.url + "&token=";
    var rest := FinalQuery(a) + Fragment("app_id", a.appId);
    SearchUrlAroundToken(a);
    SearchUrlAroundToken(b);
    assert FinalQuery(b) == FinalQuery(a);
    TokenAt(head, a.apiToken.token, rest);
    TokenAt(head, t.token, rest);
  }

  /** The search URL is the base URL and `&token=`, the token, then the rest. */
  lemma SearchUrlAroundToken(a: Api)
    ensures SearchUrl(a) == (a.url + "&token=") + a.apiToken.token + (FinalQuery(a) + Fragment("app_id", a.appId))
  {
    var u := a.url;
    var k := a.apiToken.token;
    var q := FinalQuery(a);
    var i := Fragment("app_id", a.appId);
    assert Fragment("token", k) == "&token=" + k;
    assert SearchUrl(a) == u + ("&token=" + k) + q + i;
    Associate(u, "&token=", k);
    Associate(u + "&token=" + k, q, i);
  }

  lemma TokenAt(head: string, token: string, rest: string)
    ensures (head + token + rest)[|head|..|head| + |token|] == token
  {
  }

  /** A refused connection on the first search is the transport error. */
  lemma FirstSearchRefused(a: Api)
    requires IsValid(a.apiToken, 0)
    ensures Call(a, Scripted(_ => Refused), Start).result == Failure(TransportError)
  {
    var env := Scripted(_ => Refused);
    assert CheckToken(a.apiToken, env, Start) == Checked(true, Trace([], 1, 0));
    AnsweredAtOnce(env, Trace([], 1, 0), SearchUrl(a), a.maxRetries, Refused);
  }

  /** After an expired-token answer, a service error on the resend is the
      result. */
  lemma ExpiredThenServiceError(a: Api)
    requires IsValid(a.apiToken, 0)
    ensures Call(a, Renewing("fresh", Envelope(Absent, "error", 5)), Start).result
            == Failure(ServiceError("error", 5))
  {
    RenewedRun(ResendSame, a, "fresh", Envelope(Absent, "error", 5));
  }

  /** After an expired-token answer, a refused renewal ends the call with the
      transport error and the zero token stored. */
  lemma ExpiredThenRenewalRefused(a: Api)
    requires IsValid(a.apiToken, 0)
    ensures var r := Call(a, Scripted(k => if k == 0 then Ok(Expired) else Refused), Start);
            && r.result == Failure(TransportError)
            && r.api.apiToken == NoToken
            && r.log == [SearchRequest(SearchUrl(a)), TokenRequest(TokenUrl(a))]
  {
    var env := Scripted(k => if k == 0 then Ok(Expired) else Refused);
    var u := SearchUrl(a);
    assert CheckToken(a.apiToken, env, Start) == Checked(true, Trace([], 1, 0));
    Searched(a, env, Trace([], 1, 0), u, Expired);
    AnsweredAtOnce(env, Trace([u], 1, 0), TokenUrl(a), a.maxRetries, Refused);
  }

  /** After an expired-token answer and a renewal, a refused connection on
      the resend is the transport error, with the renewed token held. */
  lemma ExpiredThenResendRefused(a: Api)
    requires IsValid(a.apiToken, 0)
    ensures var r := Call(a, Scripted(k => if k == 0 then Ok(Expired) else if k == 1 then Granted("fresh") else Refused), Start);
            && r.result == Failure(TransportError)
            && r.api.apiToken == Token("fresh", a.tokenExpiration)
            && |r.log| == 3
  {
    var env := Scripted(k => if k == 0 then Ok(Expired) else if k == 1 then Granted("fresh") else Refused);
    var u := SearchUrl(a);
    assert CheckToken(a.apiToken, env, Start) == Checked(true, Trace([], 1, 0));
    Searched(a, env, Trace([], 1, 0), u, Expired);
    assert env.replies(1) == Granted("fresh");
    Renewed(a, env, Trace([u], 1, 0), "fresh");
    assert env.replies(2) == Refused;
    AnsweredAtOnce(env, Trace([u, TokenUrl(a)], 2, 0), u, a.maxRetries, Refused);
  }
}

=== FILE: text.dfy ===
/** String helpers with the semantics of Go's `strings.HasSuffix`,
    `strings.Join` and `strings.Split` (single-character separators). */
module Text {

  predicate EndsWith(s: string, suffix: string) {
    |suffix| <= |s| && s[|s| - |suffix|..] == suffix
  }

  /** `strings.Join(parts, sep)`. */
  function Join(parts: seq<string>, sep: char): string
    decreases |parts|
  {
    if |parts| == 0 then ""
    else if |parts| == 1 then parts[0]
    else parts[0] + [sep] + Join(parts[1..], sep)
  }

  /** Position of the first occurrence of `c` in `s`. */
  function IndexOf(s: string, c: char): (i: nat)
    requires c in s
    ensures i < |s| && s[i] == c && c !in s[..i]
  {
    if s[0] == c then 0
    else
      var j := IndexOf(s[1..], c);
      assert s[..j + 1] == [s[0]] + s[1..][..j];
      1 + j
  }

  /** `strings.Split(s, sep)`: the maximal separator-free pieces, always at least one. */
  function Split(s: string, sep: char): (parts: seq<string>)
    ensures |parts| >= 1
    ensures forall i :: 0 <= i < |parts| ==> sep !in parts[i]
    decreases |s|
  {
    if sep in s then
      var i := IndexOf(s, sep);
      [s[..i]] + Split(s[i + 1..], sep)
    else
      [s]
  }

  lemma {:induction false} IndexOfSeparator(a: string, sep: char, b: string)
    requires sep !in a
    ensures IndexOf(a + [sep] + b, sep) == |a|
    decreases |a|
  {
    var s := a + [sep] + b;
    if |a| > 0 {
      assert s[0] == a[0];
      assert s[1..] == a[1..] + [sep] + b;
      IndexOfSeparator(a[1..], sep, b);
    }
  }

  /** Splitting a joined list of separator-free pieces gives the pieces back. */
  lemma {:induction false} SplitJoin(parts: seq<string>, sep: char)
    requires |parts| >= 1
    requires forall i :: 0 <= i < |parts| ==> sep !in parts[i]
    ensures Split(Join(parts, sep), sep) == parts
    decreases |parts|
  {
    if |parts| > 1 {
      var rest := Join(parts[1..], sep);
      var s := parts[0] + [sep] + rest;
      assert Join(parts, sep) == s;
      assert s[|parts[0]|] == sep;
      IndexOfSeparator(parts[0], sep, rest);
      assert s[..|parts[0]|] == parts[0];
      assert s[|parts[0]| + 1..] == rest;
      assert Split(s, sep) == [parts[0]] + Split(rest, sep);
      SplitJoin(parts[1..], sep);
      assert parts == [parts[0]] + parts[1..];
    }
  }

  /** Joining the pieces of a split string rebuilds the string. */
  lemma {:induction false} JoinSplit(s: string, sep: char)
    ensures Join(Split(s, sep), sep) == s
    decreases |s|
  {
    if sep in s {
      var i := IndexOf(s, sep);
      JoinSplit(s[i + 1..], sep);
      var tail := Split(s[i + 1..], sep);
      assert ([s[..i]] + tail)[1..] == tail;
      assert s == s[..i] + [sep] + s[i + 1..];
    }
  }
}

=== FILE: tokens.dfy ===
/** Bearer tokens and their expiry. Instants and durations are integers
    counting nanoseconds, like Go's `time.Duration`; the wall clock is an
    input of the model, never read here. */
module Tokens {

  const Second: int := 1_000_000_000

  /** The service forgets a token after 15 minutes; the client stops trusting it after 890 seconds. */
  const DefaultTokenExpiration: int := 890 * Second

  /** Stands for Go's zero `time.Time`; only ever paired with an empty token string. */
  const ZeroTime: int := 0

  datatype Token = Token(token: string, expires: int)

  /** Go's zero `Token`, which `renewToken` hands back with every error. */
  const NoToken: Token := Token("", ZeroTime)

  /** `Token.IsValid` at instant `now`. The code rejects a token only once
      `now` is strictly after its expiry, so the expiry instant itself is
      still valid. */
  function IsValid(t: Token, now: int): (valid: bool)
    ensures t.token == "" ==> !valid
    ensures t.token != "" ==> (valid <==> now <= t.expires)
  {
    if t.token == "" then false
    else if now > t.expires then false
    else true
  }

  /** The expiry stamp `renewToken` puts on a freshly decoded token. */
  function Stamp(token: string, now: int, expiration: int): (t: Token)
    ensures t.token == token
    ensures t.expires - now == expiration
  {
    Token(token, now + expiration)
  }

  /** A token renewed at `renewedAt` with a non-negative window stays valid
      up to and including the end of the window, and not one instant later;
      an empty token string is never valid. */
  lemma StampedTokenValidity(token: string, renewedAt: int, expiration: int, now: int)
    requires renewedAt <= now
    ensures IsValid(Stamp(token, renewedAt, expiration), now)
            <==> token != "" && now - renewedAt <= expiration
  {
  }

  /** Validity only ever ends: a token valid at some instant was valid at
      every earlier instant. */
  lemma ValidityIsDownwardClosed(t: Token, earlier: int, later: int)
    requires earlier <= later
    requires IsValid(t, later)
    ensures IsValid(t, earlier)
  {
  }
}

=== FILE: transport.dfy ===
/** `makeRequest`: one GET with the bounded retry policy for 429 answers.
    The network, URL parsing and the clock are inputs (an `Env`); what the
    client does to them is recorded in a `Trace`. Sleeping is counted, not
    performed. */
module Transport {
  import opened Wrappers
  import opened Errors
  import opened Responses
  import opened GoInt

  const StatusOK: int := 200
  const StatusTooManyRequests: int := 429

  /** What a response body decodes to, as a search envelope and as a token. */
  datatype Body = Body(envelope: Option<Envelope>, token: Option<string>)

  /** The answer to one HTTP request: a transport failure or a status with a body. */
  datatype Reply = Refused | Response(status: int, body: Body)

  /** The outside world: `replies(k)` answers the k-th HTTP request the client
      ever sends, `accepts(u)` says whether `http.NewRequest` can build a GET for
      `u`, and `clock(k)` is the k-th reading of `time.Now()`. */
  datatype Env = Env(replies: nat -> Reply, accepts: string -> bool, clock: nat -> int)

  /** What the client has done so far: every HTTP request sent (`wire`), how
      many clock readings and how many back-off sleeps. */
  datatype Trace = Trace(wire: seq<string>, readings: nat, sleeps: nat)

  datatype Sent = Sent(result: Result<Body, ApiError>, trace: Trace)

  predicate Throttled(r: Reply) {
    r.Response? && r.status == StatusTooManyRequests
  }

  /** The number of requests a run of 429 answers gets from a counter
      starting at `n`: one request, then as many more as the decremented
      counter says while it is positive. The counter is decremented before it
      is compared, so a value below one still gives one request, except the
      minimum, which wraps around to the maximum. */
  function Attempts(n: Int): (r: nat)
    ensures r == 1 + (if Decrement(n) > 0 then Decrement(n) else 0)
  {
    if n == MinInt then MaxInt + 1 else if n < 1 then 1 else n
  }

  /** The result a reply stands for when it is the last one received. */
  function Verdict(r: Reply): Result<Body, ApiError> {
    match r
    case Refused => Failure(TransportError)
    case Response(status, body) =>
      if status == StatusOK then Success(body)
      else if status == StatusTooManyRequests then Failure(RateLimitExceeded)
      else Failure(BadStatus(status))
  }

  /** `makeRequest(url)` with its attempt counter at `maxAttempts`. Every
      reply before the last was a 429, the last one decides the result, and a
      429 is final only on the last allowed attempt. */
  function MakeRequest(env: Env, tr: Trace, url: string, maxAttempts: Int): (s: Sent)
    ensures s.trace.readings == tr.readings
    ensures |tr.wire| <= |s.trace.wire| <= |tr.wire| + Attempts(maxAttempts)
    ensures s.trace.wire[..|tr.wire|] == tr.wire
    ensures forall k :: |tr.wire| <= k < |s.trace.wire| ==> s.trace.wire[k] == url
    ensures |s.trace.wire| == |tr.wire| <==> !env.accepts(url)
    ensures !env.accepts(url) ==> s == Sent(Failure(RequestBuildError), tr)
    ensures |s.trace.wire| > |tr.wire| ==>
              s.trace.sleeps == tr.sleeps + |s.trace.wire| - |tr.wire| - 1
    ensures forall k :: |tr.wire| <= k < |s.trace.wire| - 1 ==> Throttled(env.replies(k))
    ensures |s.trace.wire| > |tr.wire| ==> s.result == Verdict(env.replies(|s.trace.wire| - 1))
    ensures |s.trace.wire| > |tr.wire| && Throttled(env.replies(|s.trace.wire| - 1)) ==>
              |s.trace.wire| - |tr.wire| == Attempts(maxAttempts)
    decreases Attempts(maxAttempts)
  {
    var left := Decrement(maxAttempts);
    if !env.accepts(url) then
      Sent(Failure(RequestBuildError), tr)
    else
      var reply := env.replies(|tr.wire|);
      var sent := tr.(wire := tr.wire + [url]);
      match reply
      case Refused => Sent(Failure(TransportError), sent)
      case Response(status, body) =>
        if status == StatusOK then
          Sent(Success(body), sent)
        else if status == StatusTooManyRequests then
          if left > 0 then
            MakeRequest(env, sent.(sleeps := sent.sleeps + 1), url, left)
          else
            Sent(Failure(RateLimitExceeded), sent)
        else
          Sent(Failure(BadStatus(status)), sent)
  }

  /** The `for` loop of `makeRequest` as written, with `continue` after each
      429 while the decremented counter is positive. It computes exactly what
      `MakeRequest` describes. */
  method MakeRequestLoop(env: Env, tr: Trace, url: string, maxRetries: Int)
    returns (result: Result<Body, ApiError>, trace: Trace)
    ensures Sent(result, trace) == MakeRequest(env, tr, url, maxRetries)
    ensures |trace.wire| - |tr.wire| <= Attempts(maxRetries)
  {
    var maxAttempts := maxRetries;
    trace := tr;
    while true
      invariant MakeRequest(env, trace, url, maxAttempts) == MakeRequest(env, tr, url, maxRetries)
      decreases Attempts(maxAttempts)
    {
      maxAttempts := Decrement(maxAttempts);
      if !env.accepts(url) {
        return Failure(RequestBuildError), trace;
      }
      var reply := env.replies(|trace.wire|);
      trace := trace.(wire := trace.wire + [url]);
      match reply {
        case Refused =>
          return Failure(TransportError), trace;
        case Response(status, body) =>
          if status == StatusOK {
            return Success(body), trace;
          } else if status == StatusTooManyRequests {
            if maxAttempts > 0 {
              trace := trace.(sleeps := trace.sleeps + 1);
              continue;
            }
            return Failure(RateLimitExceeded), trace;
          } else {
            return Failure(BadStatus(status)), trace;
          }
      }
    }
  }

  /** A server that answers 429 to everything gets exactly `Attempts(maxRetries)`
      requests, then the rate-limit error. */
  lemma PersistentThrottling(env: Env, tr: Trace, url: string, maxRetries: Int)
    requires env.accepts(url)
    requires forall k :: Throttled(env.replies(k))
    ensures MakeRequest(env, tr, url, maxRetries).result == Failure(RateLimitExceeded)
    ensures |MakeRequest(env, tr, url, maxRetries).trace.wire| == |tr.wire| + Attempts(maxRetries)
  {
  }

  /** `MaxRetries(math.MinInt64)` against a server that answers 429 to
      everything: the first decrement wraps the counter to the maximum, and
      the client sends 2^63 requests before it gives up. */
  lemma MinimumRetriesWrap(env: Env, tr: Trace, url: string)
    requires env.accepts(url)
    requires forall k :: Throttled(env.replies(k))
    ensures MakeRequest(env, tr, url, MinInt).result == Failure(RateLimitExceeded)
    ensures |MakeRequest(env, tr, url, MinInt).trace.wire| == |tr.wire| + 0x8000_0000_0000_0000
  {
    PersistentThrottling(env, tr, url, MinInt);
  }
}

=== FILE: wrappers.dfy ===
/** Failure-compatible wrappers shared by every module of the model. */
module Wrappers {

  /** A value that may be missing. */
  datatype Option<+T> = None | Some(value: T)

  /** Either a value or an error, in place of Go's `(value, error)` pairs. */
  datatype Result<+R, +E> = Success(value: R) | Failure(error: E)
}
